=== FILE: README.md ===
# Vehicle registration checker — a Dafny model of its search core

The checker looks up one vehicle registration number against a remote
registration service, once per calendar day in a date range, until it finds
the day under which the vehicle was registered. `start_checking` checks the
user's input, resets the shared flags and counters, and splits the range into
contiguous sub-ranges. It then spawns one worker thread per sub-range. Each
worker (`check_vehicle_thread`) walks its days in order. Before each day it
looks at two shared flags: `is_running`, which the Stop button clears, and
`record_found`, which any worker sets. It asks the service about the day and
classifies the reply:

- a non-200 status is fatal;
- the service's "no record" page means keep going;
- anything else is a match.

On a fatal status or a match the worker saves the body and counts it in
`found_count`. It then sets `record_found` and leaves its loop, which stops
every other worker at its next check.

This project models that logic in Dafny and proves properties of it. Days
are integer day numbers. Every remote reply is an input. The other threads
and the user are an "interference" input, applied at each loop guard.

Modules, following `src/main.rs`:

- `Ranges` (ranges.dfy): the range partition in the spawn loop of `start_checking`.
- `Responses` (responses.dfy): the reply classifier, the body preview and the saved file name.
- `EventLog` (eventlog.dfy): log entries and the retention rule of `log` / `log_static`.
- `Worker` (worker.dfy): one worker's loop, as a state machine over a sequence of steps.
- `Checker` (checker.dfy): the input gate and reset of `start_checking`, spawning, `stop_checking`, the status line, and the workers run one after another.
- `Text` (text.dfy): trimming, ASCII upper-casing, substring search and decimal rendering.
- `Wrappers` (wrappers.dfy): `Option`.
- `Numbers` (numbers.dfy): `Min`.

Behaviour of the code worth spelling out:

- `checked_dates` and the worker's own `checked_count` go up for every received response: non-200, match and no-record. The every-10th progress entry uses the same count.
- The spawn loop creates `min(n, total)` workers, all with at least one day: it breaks as soon as the next start passes the end date.
- A non-200 response goes through `save_response`, so it increments `found_count` like a match does. When the run ends, the status line then reads "RECORD FOUND!" (see `Checker.FinalStatus`).
- `num_threads = 0` would divide by zero at src/main.rs line 121. The slider limits it to 1..=20, so `n >= 1` is a precondition.

## Model

| member | source | states |
|---|---|---|
| Ranges.SpawnFrom | src/main.rs:152-191 | Runs the spawn loop from iteration `i` while days remain. It yields one range per iteration until the last worker with work. Each range has exactly that worker's share of days. The ranges are contiguous and the last ends at `end`. |
| Ranges.Partition | src/main.rs:120-191 | Gives exactly `min(n, total)` ranges, none empty. The first starts at `start` and the last ends at `end`; each starts the day after the previous one ends. Range `k` has `total / n` days, plus one if `k < total % n`. Since each range has its full share, the clamp at src/main.rs line 155 never shortens one. |
| Ranges.PartitionTiles | src/main.rs:150-191 | A day lies in some spawned range if and only if it is within `[start, end]`. It lies in at most one range, and the ranges are in strictly ascending order. |
| Ranges.PartitionSum | src/main.rs:120-129 | The workers' day counts add up to `total_dates`, the total the progress display counts against. |
| Ranges.SharesBalanced | src/main.rs:121-153 | An earlier worker gets as many days as a later one, or one more, never fewer. |
| Ranges.ContiguousCovers | src/main.rs:186-190 | Contiguous non-empty ranges cover exactly the days from the first start to the last end. |
| Ranges.TenDaysThreeWorkers | src/main.rs:120-191 | Ten days over three workers gives days 1-4, 5-7 and 8-10. |
| Ranges.MoreWorkersThanDays | src/main.rs:186-190 | Two days over five workers spawns two single-day ranges; the loop breaks before the third. |
| Responses.Classify | src/main.rs:247-268 | A status other than 200 is fatal whatever the body, and carries that status. A 200 is no-record if and only if the body contains both phrases, ignoring case. Otherwise it is a match. |
| Responses.ClassifyIgnoresCase | src/main.rs:261-262 | Two bodies that are equal apart from ASCII case get the same verdict. |
| Responses.LowerCaseNoRecordPage | src/main.rs:261-262 | A lower-case no-record page with both phrases is classified no-record. |
| Responses.OnePhraseIsMatch | src/main.rs:261-268 | A 200 body with only "no record found" is a match. |
| Responses.Preview | src/main.rs:254-255 | The preview has `min(|body|, 300)` characters and no newline or tab. Each character is the body's, except that a newline or tab becomes a space. |
| Responses.PreviewIdempotent | src/main.rs:278-279 | Taking the preview of a preview changes nothing. |
| Responses.Filename | src/main.rs:349-354 | A non-200 status gives `HTTP<status>_<vehicle>_<date>.html`. A 200 gives `<vehicle>_<date>.html`, with no prefix. |
| Responses.FilenameDeterminesStatus | src/main.rs:349-354 | For one vehicle and date, two statuses give the same file name if and only if they are equal. |
| Text.Contains | src/main.rs:261-262 | The substring search is true if and only if the pattern occurs at some offset of the text. |
| Text.OccursInUpperIff | src/main.rs:261-262 | Searching the upper-cased body for an upper-case phrase is the same as a case-insensitive search of the body. |
| Text.TrimSlice | src/main.rs:89-91 | The trimmed vehicle string is a slice of the input with only whitespace cut from each end. It does not start or end with whitespace. |
| Text.TrimEmptyIff | src/main.rs:89-94 | The trimmed string is empty if and only if the input is all whitespace. |
| Text.ParseDecimalOfDecimal | src/main.rs:350 | Reading back the decimal rendering of a status gives the status. |
| Text.DecimalInjective | src/main.rs:350 | Two numbers have the same decimal rendering if and only if they are equal. |
| EventLog.Append | src/main.rs:73-79 | The new entry is always last. Below the cap the log just grows by that entry. At the cap exactly the oldest 100 entries go and the rest keep their order. A log within 1000 entries stays within 1000. |
| EventLog.AppendAllRetains | src/main.rs:204-217 | After any number of appends, a log that began within the cap is still within it. It is a suffix of the old log plus the new entries, and holds at least the newest 901 of them. |
| EventLog.NewestEntriesKept | src/main.rs:212-217 | Up to 901 newly written entries are all still at the end of the log. |
| Worker.Iterate | src/main.rs:236-292 | Each pass issues exactly one request, for the current day. A transport error changes no counter or flag and moves one day on. A received response adds exactly 1 to the local and shared checked counts. On a fatal or match verdict the worker counts one find, sets `record_found` and leaves the loop on that day. On a no-record page it touches neither, moves one day on, and logs `Progress(thread, count, day)` with the new local count if and only if that count is a multiple of 10, and nothing else. |
| Worker.Save | src/main.rs:334-367 | `found_count` goes up by one whether or not the file write succeeds. The log records the saved file or the write failure. |
| Worker.Finish | src/main.rs:295-299 | Leaving the loop logs "stopped due to record found" if `record_found` is set, else the completion entry with the local count. |
| Worker.Run | src/main.rs:232-299 | Over a run, the local and shared counters never decrease. Requests are only appended, and an exited worker does nothing more. |
| Worker.RunInv | src/main.rs:232-293 | Every reachable state keeps the invariant. The days asked about are exactly the days from the start of the sub-range up to the current one; this includes the current day when the loop broke on it. No day past the end is ever requested; the current day goes at most one day past the end. |
| Worker.QueriesAscendWithinRange | src/main.rs:232-292 | The `i`-th request is for day `first + i`. Requests are strictly ascending, each day is asked at most once, and all days lie in the worker's sub-range. |
| Worker.NoRequestAfterStop | src/main.rs:235 | If `is_running` is false or `record_found` is true at the guard, the worker issues no request and leaves the loop. |
| Worker.SpawnInv | src/main.rs:232-233 | A freshly spawned worker satisfies the invariant. |
| Worker.SpawnedAfterFindIdle | src/main.rs:235 | A worker that starts with `record_found` set never issues a request. |
| Worker.QuietRunCounts | src/main.rs:240-245 | With no interference, the shared checked count grows exactly as the local one. The find count grows by one exactly when the loop broke, and otherwise stays the same, as does `record_found`. |
| Worker.AllNoRecordExhaustsRange | src/main.rs:235-298 | If every reply is the no-record page, the worker asks about every day of its range once. It counts them all as checked, finds nothing, and ends with the completion entry. |
| Worker.FirstHitStops | src/main.rs:247-283 | If the first received response that is not the no-record page comes on the `k`-th day, the worker stops on that day. It has asked about exactly the days up to it and counted one find. |
| Checker.Validate | src/main.rs:89-118 | The checks run in source order: empty vehicle, then bad start date, then bad end date, then start after end. Each error happens if and only if its condition holds and no earlier check failed. The vehicle is empty if and only if the raw input is all whitespace. An accepted input carries the trimmed, upper-cased vehicle. |
| Checker.AcceptedVehicleNormal | src/main.rs:89-94 | An accepted vehicle number is non-empty, has no surrounding whitespace, and is unchanged by upper-casing. |
| Checker.Launch | src/main.rs:152-185 | Spawns one worker per sub-range, numbered from 1. Each sees the reset flags and zeroed counters. |
| Checker.StartChecking | src/main.rs:88-193 | On rejected input it logs one error entry, changes no flag or counter, and spawns no worker. Otherwise it sets `is_running`, clears `record_found`, zeroes both counters and sets the total. It then spawns `min(n, total)` workers numbered 1.. on the partition's ranges, and appends the start banner (the plan entries, one thread entry per worker, the closing rule) to the log through `log_static`'s retention rule. |
| Checker.StartLogsPlan | src/main.rs:131-193 | An accepted start from a log within its cap leaves the whole banner at the end of the log, in order: the seven plan entries with the trimmed, upper-cased vehicle, then `Thread i: a to b` for each spawned worker with exactly its sub-range, then the closing rule. |
| Checker.BannerOfPlanFromSuffix | src/main.rs:157-159 | A log ending with the plan entries, one thread entry per sub-range and the rule has the `i`-th thread entry naming worker `i + 1` and the `i`-th sub-range's first and last day. |
| Checker.StopChecking | src/main.rs:369-372 | Clears `is_running`, leaves the other flags and counters alone, and appends the stopping entry. |
| Checker.StopIdempotent | src/main.rs:369-372 | Stopping twice has the same effect on flags and counters as stopping once. |
| Checker.StatusText | src/main.rs:390-396 | Shows "RECORD FOUND!" if and only if not running with `record_found` set and `found_count > 0`. Shows "Ready" if and only if not running otherwise. While running it shows "Running... (…)". |
| Checker.RunningStatusShowsCounters | src/main.rs:395 | While running, the status line holds the checked count, then `/`, then the total, and both counts can be read back from it. |
| Checker.RunSerial | src/main.rs:195-200 | Runs the workers one after another, each seeing the shared state the last one left. There is one worker result per range, and the counters never decrease. |
| Checker.SerialNoRecordChecksAll | src/main.rs:240-245 | If every reply is the no-record page, the shared checked count grows by exactly the planned days. Nothing is found and `record_found` stays clear. |
| Checker.NothingFoundInTenDays | src/main.rs:120-129 | Ten days, three workers and every reply no-record end with 10 checked, 0 found, still running and no record flag. |
| Checker.SerialAfterFind | src/main.rs:235 | Once `record_found` is set, no later worker issues a request or counts a find. |
| Checker.SerialStopPropagates | src/main.rs:258-282 | Every worker after one that left `record_found` set issues no request. |
| Checker.SerialFindsAtMostOne | src/main.rs:344-346 | Undisturbed, the run adds at most one find: exactly one if some worker broke on a match or fatal status. `record_found` ends set if and only if it was set before or some worker broke. |
| Checker.FinalStatus | src/main.rs:390-393 | After the join and the clearing of `is_running` (src/main.rs line 200), a fresh undisturbed run shows "RECORD FOUND!" if and only if some worker broke on a match or fatal status. Otherwise it shows "Ready". |

## Left out

- The HTTP request: the multipart body, the client with its 10-second timeout, and the fixed endpoint (src/main.rs:302-332). These are network I/O, so each reply is an input: a transport error with its message, or a status and body.
- Threads, `join`, and the `Arc`/`Mutex`/`AtomicBool` semantics. Other threads appear only as interference seen at each loop guard: a stop, a peer's find, or peer counter increments. The whole-run lemmas cover one schedule only, with workers running one after another; other interleavings are not modelled. Under those, `found_count` can exceed 1: `save_response` increments it (src/main.rs lines 344-346) before the worker stores `record_found` (lines 258 and 282), so a peer can pass its guard in between and count a second find. `Worker.Run` itself allows this when the interference step leaves `record_found` clear.
- A second Start while workers of an earlier run are still live: the Start button re-enables as soon as `is_running` is false, and `start_checking` resets the shared flags those workers read. Cross-run interference is not modelled.
- Date parsing and formatting by chrono. Dates are day numbers; a date that fails to parse is `None`. `Responses.Filename` takes the date already rendered. Log messages carry day numbers, not date strings.
- Wall-clock timestamps on log entries and in `save_response`. Log messages are structured values; the text formatting is not modelled.
- The order of log entries across threads. The model appends the coordinator's `Thread i: a to b` entries and closing rule as one block right after the plan. In the source the spawned workers may log in between; their entries are kept in each worker's own `emitted` sequence.
- Writing the saved file and creating the results directory. Whether the write succeeds is an input of each step.
- The egui window, the float progress ratio, colours, `clear_logs` and `main`. These are presentation only.
- Text.Upper: only ASCII letters are upper-cased. Rust's `to_uppercase` maps all of Unicode and can change length (`ä` becomes `Ä`, `ß` becomes `SS`). For reply bodies this matters only when non-ASCII letters sit inside a signature phrase, since both phrases are ASCII. The vehicle number (src/main.rs line 89) goes through the same `Upper`, so a vehicle number with non-ASCII letters keeps them unchanged in the model. The source upper-cases them, and the result reaches the request, the log entries and the saved file name.
- Worker.Finish: the closing entry reads `record_found` as it was at the last guard, or as the worker itself set it. The source loads the flag again (src/main.rs line 295), so a peer could set it in between.
- Worker.Run: counters are unbounded integers. The shared `usize` counters and the worker's `checked_count`, an `i32`, grow by at most one per day. chrono's whole date range has fewer than 2^31 days, so none of them overflows. Day arithmetic is a different matter; see the next three lines.
- Worker.Iterate: day numbers are unbounded, so after each pass the model moves on to `current + 1`. In the source, `current_date + Duration::days(1)` (src/main.rs line 292) panics when the current day is chrono's last date, `+262143-12-31`, which the `%Y` parse accepts. The worker thread dies right after handling that day.
- Worker.AllNoRecordExhaustsRange: for a sub-range that ends on chrono's last date, the source worker panics at src/main.rs line 292 after checking that day. It never logs the `Completed` entry this lemma ends with.
- Checker.StartChecking: for an end date that is chrono's last date, the closing rule that this contract puts at the end of the log is never written, because the coordinating thread panics at src/main.rs line 186 first (see the next line).
- Checker.StartLogsPlan: for an end date that is chrono's last date, the coordinating thread panics at src/main.rs line 186 right after spawning the last worker. The closing rule of line 193 is never logged, the workers are never joined, and line 200 never clears `is_running`, so the status stays "Running... (…)".
- Checker.FinalStatus: relies on the clearing of `is_running` at src/main.rs line 200. That line is not reached when the end date is chrono's last date; see the line above.

=== FILE: checker.dfy ===
/**
  The coordinating side of the checker: the input gate and set-up of
  `start_checking`, spawning one worker per sub-range, `stop_checking`, the
  status line the window shows, and the whole search run under one
  particular schedule (workers one after another) to relate the workers'
  results to the shared counters.
 */
module Checker {
  import opened Numbers
  import opened Wrappers
  import opened Text
  import opened EventLog
  import opened Ranges
  import opened Responses
  import opened Worker

  /** The checker's shared state: flags, counters and the console log. */
  datatype CheckerState = CheckerState(running: bool, recordFound: bool, found: nat, checked: nat, total: nat, log: seq<Entry>)

  /** The outcome of the input checks: normalised inputs, or the error to log. */
  datatype Gate = Accept(vehicle: string, first: int, last: int) | Reject(reason: Message)

  /** The vehicle number as `start_checking` uses it: trimmed and upper-cased. */
  function Normalise(raw: string): string {
    Upper(Trim(raw))
  }

  /**
    In src/main.rs lines 89-118, in their order: an empty vehicle number, then an unparsable
    start date, then an unparsable end date, then a start after the end.
    A date that did not parse is `None`.
   */
  function Validate(raw: string, start: Option<int>, end: Option<int>): (g: Gate)
    ensures g.Accept? <==> Normalise(raw) != [] && start.Some? && end.Some? && start.value <= end.value
    ensures g.Accept? ==> g == Accept(Normalise(raw), start.value, end.value)
    ensures g == Reject(EnterVehicle) <==> AllWhitespace(raw)
    ensures g == Reject(BadStartDate) <==> !AllWhitespace(raw) && start.None?
    ensures g == Reject(BadEndDate) <==> !AllWhitespace(raw) && start.Some? && end.None?
    ensures g == Reject(StartAfterEnd) <==> !AllWhitespace(raw) && start.Some? && end.Some? && start.value > end.value
  {
    TrimEmptyIff(raw);
    var vehicle := Normalise(raw);
    if vehicle == [] then Reject(EnterVehicle)
    else if start.None? then Reject(BadStartDate)
    else if end.None? then Reject(BadEndDate)
    else if start.value > end.value then Reject(StartAfterEnd)
    else Accept(vehicle, start.value, end.value)
  }

  /** An accepted vehicle number is non-empty, has no surrounding whitespace and is already upper-case. */
  lemma AcceptedVehicleNormal(raw: string, start: Option<int>, end: Option<int>)
    requires Validate(raw, start, end).Accept?
    ensures var v := Validate(raw, start, end).vehicle;
      && v != [] && !IsWhitespace(v[0]) && !IsWhitespace(v[|v| - 1]) && Upper(v) == v
  {
    assert Validate(raw, start, end).vehicle == Normalise(raw);
    NormalisedShape(raw);
  }

  lemma NormalisedShape(raw: string)
    requires Normalise(raw) != []
    ensures var v := Normalise(raw);
      !IsWhitespace(v[0]) && !IsWhitespace(v[|v| - 1]) && Upper(v) == v
  {
    NormalisedEnds(raw);
    UpperIdempotent(Trim(raw));
  }

  lemma NormalisedEnds(raw: string)
    requires Normalise(raw) != []
    ensures !IsWhitespace(Normalise(raw)[0]) && !IsWhitespace(Normalise(raw)[|Normalise(raw)| - 1])
  {
    TrimEnds(raw);
    UpperKeepsEnds(Trim(raw));
  }

  /** The entries `start_checking` logs before spawning (src/main.rs lines 131-137). */
  function PlanEntries(vehicle: string, first: int, last: int, n: nat): seq<Entry>
    requires n >= 1
  {
    var total := TotalDays(first, last);
    [ Entry(Info, StartingCheck(vehicle)),
      Entry(Info, DateSpan(first, last)),
      Entry(Info, DayCount(total)),
      Entry(Info, ThreadPlan(n, total / n)),
      Entry(Info, ResultsDirectory),
      Entry(Warning, AutoStopNotice),
      Entry(Info, Rule('-')) ]
  }

  /** The `Thread i: a to b` entry the spawn loop logs for each sub-range (src/main.rs lines 157-159), numbered from `first`. */
  function SpawnEntries(plan: seq<DayRange>, first: nat): (es: seq<Entry>)
    ensures |es| == |plan|
    ensures forall i :: 0 <= i < |es| ==> es[i] == Entry(Info, ThreadRange(first + i, plan[i].first, plan[i].last))
    decreases |plan|
  {
    if plan == [] then []
    else [Entry(Info, ThreadRange(first, plan[0].first, plan[0].last))] + SpawnEntries(plan[1..], first + 1)
  }

  /**
    Everything an accepted start logs, in the order the coordinating thread
    writes it: the plan, one entry per spawned worker, then the closing rule
    (src/main.rs line 193). The workers' own entries may interleave with the
    last two groups; the model keeps them in each worker's `emitted`.
   */
  function StartEntries(vehicle: string, first: int, last: int, n: nat): seq<Entry>
    requires n >= 1 && first <= last
  {
    PlanEntries(vehicle, first, last, n) + SpawnEntries(Partition(first, last, n), 1) + [Entry(Info, Rule('-'))]
  }

  /** What a call of `start_checking` leaves behind: the new state and the workers it spawns, none on a rejected input. */
  datatype Started = Started(state: CheckerState, workers: seq<WorkerState>)

  /** One worker per sub-range, numbered from 1, all seeing the freshly reset shared state (src/main.rs lines 150-191). */
  function Launch(vehicle: string, plan: seq<DayRange>, first: nat): (ws: seq<WorkerState>)
    ensures |ws| == |plan|
    ensures forall i :: 0 <= i < |ws| ==> ws[i] == Spawn(first + i, vehicle, plan[i], 0, 0, true, false)
    decreases |plan|
  {
    if plan == [] then []
    else [Spawn(first, vehicle, plan[0], 0, 0, true, false)] + Launch(vehicle, plan[1..], first + 1)
  }

  /**
    `start_checking`: on a rejected input only the error entry is logged and
    no flag or counter changes; otherwise the flags and counters are reset,
    the plan is logged and one worker per sub-range is spawned. The worker
    count comes from a slider limited to 1..=20.
   */
  function StartChecking(c: CheckerState, raw: string, start: Option<int>, end: Option<int>, n: nat): (r: Started)
    requires n >= 1
    ensures Validate(raw, start, end).Reject? ==>
              && r.workers == []
              && r.state == c.(log := Append(c.log, Entry(Error, Validate(raw, start, end).reason)))
    ensures Validate(raw, start, end).Accept? ==>
              && r.state.running && !r.state.recordFound
              && r.state.found == 0 && r.state.checked == 0
              && r.state.total == TotalDays(start.value, end.value)
              && r.state.log == AppendAll(c.log, StartEntries(Normalise(raw), start.value, end.value, n))
              && |r.workers| == Min(n, TotalDays(start.value, end.value))
              && (forall i :: 0 <= i < |r.workers| ==>
                    r.workers[i].thread == i + 1 && r.workers[i].vehicle == Normalise(raw)
                    && r.workers[i].first == Partition(start.value, end.value, n)[i].first
                    && r.workers[i].last == Partition(start.value, end.value, n)[i].last)
  {
    match Validate(raw, start, end)
    case Reject(reason) =>
      Started(c.(log := Append(c.log, Entry(Error, reason))), [])
    case Accept(vehicle, first, last) =>
      assert vehicle == Normalise(raw) && first == start.value && last == end.value;
      var total := TotalDays(first, last);
      var reset := CheckerState(true, false, 0, 0, total, AppendAll(c.log, StartEntries(vehicle, first, last, n)));
      Started(reset, Launch(vehicle, Partition(first, last, n), 1))
  }

  /** The largest worker count the window's slider offers (src/main.rs line 430). */
  const MaxThreads: nat := 20

  /**
    `head`, then `Thread i: a to b` for each sub-range of `plan` in order,
    then the closing rule, sit at the end of `log`; `BannerBase` is where
    `head` starts.
   */
  ghost predicate BannerOfPlan(log: seq<Entry>, head: seq<Entry>, plan: seq<DayRange>) {
    var base := BannerBase(log, head, plan);
    && base >= 0
    && log[base..base + |head|] == head
    && (forall i :: 0 <= i < |plan| ==> log[base + |head| + i] == Entry(Info, ThreadRange(i + 1, plan[i].first, plan[i].last)))
    && log[|log| - 1] == Entry(Info, Rule('-'))
  }

  function BannerBase(log: seq<Entry>, head: seq<Entry>, plan: seq<DayRange>): int {
    |log| - (|head| + |plan| + 1)
  }

  /** The start banner of a run over `first..=last` with `n` workers sits at the end of `log`. */
  ghost predicate BannerAt(log: seq<Entry>, vehicle: string, first: int, last: int, n: nat)
    requires n >= 1 && first <= last
  {
    BannerOfPlan(log, PlanEntries(vehicle, first, last, n), Partition(first, last, n))
  }

  /**
    An accepted start, from a log within its cap, leaves the whole start
    banner at the end of the log, for the normalised vehicle and the
    validated range.
   */
  lemma StartLogsPlan(c: CheckerState, raw: string, start: Option<int>, end: Option<int>, n: nat)
    requires 1 <= n <= MaxThreads && |c.log| <= Cap
    requires Validate(raw, start, end).Accept?
    ensures BannerAt(StartChecking(c, raw, start, end, n).state.log, Normalise(raw), start.value, end.value, n)
  {
    BannerAtEnd(c.log, Normalise(raw), start.value, end.value, n);
  }

  /** Appending the start banner to a log within its cap leaves all of it, in order, at the end. */
  lemma BannerAtEnd(log: seq<Entry>, vehicle: string, first: int, last: int, n: nat)
    requires 1 <= n <= MaxThreads && first <= last && |log| <= Cap
    ensures BannerAt(AppendAll(log, StartEntries(vehicle, first, last, n)), vehicle, first, last, n)
  {
    var plan := Partition(first, last, n);
    assert |plan| <= MaxThreads;
    BannerOfPlanAtEnd(log, PlanEntries(vehicle, first, last, n), plan);
  }

  /** Appending a head, the per-worker entries and the rule to a log within its cap leaves them at its end. */
  lemma BannerOfPlanAtEnd(log: seq<Entry>, head: seq<Entry>, plan: seq<DayRange>)
    requires |log| <= Cap && |head| + |plan| + 1 <= Kept
    ensures BannerOfPlan(AppendAll(log, head + SpawnEntries(plan, 1) + [Entry(Info, Rule('-'))]), head, plan)
  {
    var es := head + SpawnEntries(plan, 1) + [Entry(Info, Rule('-'))];
    NewestEntriesKept(log, es);
    BannerOfPlanFromSuffix(AppendAll(log, es), head, plan);
  }

  /** A log that ends with a head, the per-worker entries and the rule holds the banner at its end. */
  lemma BannerOfPlanFromSuffix(r: seq<Entry>, head: seq<Entry>, plan: seq<DayRange>)
    requires IsSuffix(head + SpawnEntries(plan, 1) + [Entry(Info, Rule('-'))], r)
    ensures BannerOfPlan(r, head, plan)
  {
    var es := head + SpawnEntries(plan, 1) + [Entry(Info, Rule('-'))];
    var base := BannerBase(r, head, plan);
    assert base == |r| - |es| && r[base..] == es;
    SuffixParts(r, es, base, head);
    ThreadEntriesAt(r, es, base, head, plan);
  }

  /** The head and the last entry of a suffix `es` that starts at `base`. */
  lemma SuffixParts(r: seq<Entry>, es: seq<Entry>, base: int, head: seq<Entry>)
    requires 0 <= base && base + |es| == |r| && r[base..] == es
    requires |head| < |es| && es[..|head|] == head && es[|es| - 1] == Entry(Info, Rule('-'))
    ensures r[base..base + |head|] == head
    ensures r[|r| - 1] == Entry(Info, Rule('-'))
  {
    assert r[base..base + |head|] == r[base..][..|head|];
  }

  /** The per-worker entries of a banner `es` that starts at `base`. */
  lemma ThreadEntriesAt(r: seq<Entry>, es: seq<Entry>, base: int, head: seq<Entry>, plan: seq<DayRange>)
    requires 0 <= base && base + |es| == |r| && r[base..] == es
    requires es == head + SpawnEntries(plan, 1) + [Entry(Info, Rule('-'))]
    ensures forall i :: 0 <= i < |plan| ==> r[base + |head| + i] == Entry(Info, ThreadRange(i + 1, plan[i].first, plan[i].last))
  {
    var spawned := SpawnEntries(plan, 1);
    forall i | 0 <= i < |plan|
      ensures r[base + |head| + i] == Entry(Info, ThreadRange(i + 1, plan[i].first, plan[i].last))
    {
      assert r[base + |head| + i] == es[|head| + i];
      assert es[|head| + i] == spawned[i];
    }
  }

  /** `stop_checking` (src/main.rs lines 369-372): clears `is_running` and logs that threads are stopping. */
  function StopChecking(c: CheckerState): (c': CheckerState)
    ensures !c'.running
    ensures c'.recordFound == c.recordFound && c'.found == c.found && c'.checked == c.checked && c'.total == c.total
    ensures c'.log == Append(c.log, Entry(Warning, StoppingAll))
  {
    c.(running := false, log := Append(c.log, Entry(Warning, StoppingAll)))
  }

  /** Stopping twice has the effect of stopping once, apart from the second log entry. */
  lemma StopIdempotent(c: CheckerState)
    ensures StopChecking(StopChecking(c)).(log := []) == StopChecking(c).(log := [])
  {
  }

  const RecordFoundText: string := "RECORD FOUND!"
  const ReadyText: string := "Ready"

  /** The status line of src/main.rs lines 390-396. */
  function StatusText(running: bool, recordFound: bool, found: nat, checked: nat, total: nat): (t: string)
    ensures t == RecordFoundText <==> !running && recordFound && found > 0
    ensures t == ReadyText <==> !running && !(recordFound && found > 0)
    ensures running ==> |t| > 12 && t[..12] == "Running... (" && t[|t| - 1] == ')'
  {
    if !running && recordFound && found > 0 then RecordFoundText
    else if !running then ReadyText
    else "Running... (" + Decimal(checked) + "/" + Decimal(total) + ")"
  }

  /** While running, the status line shows the checked count and the total, separated by `/`, each readable back from it. */
  lemma RunningStatusShowsCounters(checked: nat, total: nat, found: nat, recordFound: bool)
    ensures var t := StatusText(true, recordFound, found, checked, total);
      var d := Decimal(checked);
      && |t| == 14 + |d| + |Decimal(total)|
      && ParseDecimal(t[12..12 + |d|]) == checked
      && t[12 + |d|] == '/'
      && ParseDecimal(t[13 + |d|..|t| - 1]) == total
  {
    var d := Decimal(checked);
    var e := Decimal(total);
    var t := StatusText(true, recordFound, found, checked, total);
    assert t == "Running... (" + d + "/" + e + ")";
    FiveParts("Running... (", d, "/", e, ")");
    ParseDecimalOfDecimal(checked);
    ParseDecimalOfDecimal(total);
  }

  /** Where the second and fourth parts sit in a concatenation of five. */
  lemma FiveParts(p: string, d: string, m: string, e: string, q: string)
    ensures var t := p + d + m + e + q;
      && |t| == |p| + |d| + |m| + |e| + |q|
      && t[|p|..|p| + |d|] == d
      && t[|p| + |d|..|p| + |d| + |m|] == m
      && t[|p| + |d| + |m|..|t| - |q|] == e
  {
    var t := p + d + m + e + q;
    assert t == p + (d + (m + (e + q)));
  }

  /** The shared flags and counters as one worker leaves them for the next. */
  datatype Shared = Shared(checked: nat, found: nat, running: bool, recordFound: bool)

  /**
    The workers run one after another, each to the end of its steps, each
    seeing the shared state the previous one left. This is one schedule the
    threads may take; the model does not cover interleavings.
   */
  function RunSerial(vehicle: string, plan: seq<DayRange>, inputs: seq<seq<Step>>, s: Shared, thread: nat): (r: (Shared, seq<WorkerState>))
    requires |inputs| == |plan|
    ensures |r.1| == |plan|
    ensures r.0.checked >= s.checked && r.0.found >= s.found
    decreases |plan|
  {
    if plan == [] then (s, [])
    else
      var w := Run(Spawn(thread, vehicle, plan[0], s.checked, s.found, s.running, s.recordFound), inputs[0]);
      var after := Shared(w.checked, w.found, w.running, w.recordFound);
      var rest := RunSerial(vehicle, plan[1..], inputs[1..], after, thread + 1);
      (rest.0, [w] + rest.1)
  }

  /** Every worker's steps are undisturbed, all replies are the "no record" page and there is one more step than days. */
  predicate AllNoRecord(plan: seq<DayRange>, inputs: seq<seq<Step>>)
    requires |inputs| == |plan|
  {
    forall k :: 0 <= k < |plan| ==>
      && |inputs[k]| > Days(plan[k])
      && forall j :: 0 <= j < |inputs[k]| ==> QuietStep(inputs[k][j]) && NoRecordReply(inputs[k][j])
  }

  /** When nothing matches, the checked counter grows by exactly the number of planned days and nothing is found. */
  lemma {:induction false} SerialNoRecordChecksAll(vehicle: string, plan: seq<DayRange>, inputs: seq<seq<Step>>, s: Shared, thread: nat)
    requires |inputs| == |plan| && AllNoRecord(plan, inputs)
    requires forall k :: 0 <= k < |plan| ==> plan[k].first <= plan[k].last
    requires s.running && !s.recordFound
    ensures RunSerial(vehicle, plan, inputs, s, thread).0.checked == s.checked + SumDays(plan)
    ensures RunSerial(vehicle, plan, inputs, s, thread).0.found == s.found
    ensures !RunSerial(vehicle, plan, inputs, s, thread).0.recordFound
    ensures RunSerial(vehicle, plan, inputs, s, thread).0.running
    decreases |plan|
  {
    if plan != [] {
      FirstRunNoRecord(vehicle, plan, inputs, s, thread);
      AllNoRecordTail(plan, inputs);
      var after := HandOn(FirstRun(vehicle, plan, inputs, s, thread));
      assert RunSerial(vehicle, plan, inputs, s, thread).0 == RunSerial(vehicle, plan[1..], inputs[1..], after, thread + 1).0;
      assert forall k :: 0 <= k < |plan| - 1 ==> plan[1..][k] == plan[k + 1];
      SerialNoRecordChecksAll(vehicle, plan[1..], inputs[1..], after, thread + 1);
      SumDaysFront(plan);
    }
  }

  /** An undisturbed first worker that sees only "no record" pages checks every day of its range and finds nothing. */
  lemma FirstRunNoRecord(vehicle: string, plan: seq<DayRange>, inputs: seq<seq<Step>>, s: Shared, thread: nat)
    requires |inputs| == |plan| > 0 && AllNoRecord(plan, inputs)
    requires plan[0].first <= plan[0].last
    requires s.running && !s.recordFound
    ensures HandOn(FirstRun(vehicle, plan, inputs, s, thread)) == Shared(s.checked + Days(plan[0]), s.found, true, false)
  {
    var w0 := Spawn(thread, vehicle, plan[0], s.checked, s.found, s.running, s.recordFound);
    SpawnInv(thread, vehicle, plan[0], s.checked, s.found, s.running, s.recordFound);
    assert |inputs[0]| > Days(plan[0]);
    AllNoRecordExhaustsRange(w0, inputs[0]);
  }

  lemma AllNoRecordTail(plan: seq<DayRange>, inputs: seq<seq<Step>>)
    requires |inputs| == |plan| > 0 && AllNoRecord(plan, inputs)
    ensures AllNoRecord(plan[1..], inputs[1..])
  {
    forall k | 0 <= k < |plan| - 1
      ensures |inputs[1..][k]| > Days(plan[1..][k])
    {
      assert inputs[1..][k] == inputs[k + 1];
    }
  }

  lemma {:induction false} SumDaysFront(rs: seq<DayRange>)
    requires |rs| >= 1
    ensures SumDays(rs) == Days(rs[0]) + SumDays(rs[1..])
    decreases |rs|
  {
    if |rs| > 1 {
      SumDaysFront(rs[..|rs| - 1]);
      assert rs[..|rs| - 1][1..] == rs[1..][..|rs[1..]| - 1];
    }
  }

  /**
    Ten days, three workers, every reply "no record": the checked counter
    reaches the ten days the progress display counts against, and nothing
    is found.
   */
  lemma NothingFoundInTenDays(vehicle: string, inputs: seq<seq<Step>>)
    requires |inputs| == 3 && AllNoRecord(Partition(1, 10, 3), inputs)
    ensures RunSerial(vehicle, Partition(1, 10, 3), inputs, Shared(0, 0, true, false), 1).0 == Shared(10, 0, true, false)
  {
    var plan := Partition(1, 10, 3);
    PartitionSum(1, 10, 3);
    SerialNoRecordChecksAll(vehicle, plan, inputs, Shared(0, 0, true, false), 1);
  }

  /** Every step is undisturbed. */
  predicate AllQuiet(inputs: seq<seq<Step>>) {
    forall k, j :: 0 <= k < |inputs| && 0 <= j < |inputs[k]| ==> QuietStep(inputs[k][j])
  }

  lemma AllQuietSplit(inputs: seq<seq<Step>>)
    requires |inputs| > 0 && AllQuiet(inputs)
    ensures forall j :: 0 <= j < |inputs[0]| ==> QuietStep(inputs[0][j])
    ensures AllQuiet(inputs[1..])
  {
    forall k, j | 0 <= k < |inputs[1..]| && 0 <= j < |inputs[1..][k]|
      ensures QuietStep(inputs[1..][k][j])
    {
      assert inputs[1..][k] == inputs[k + 1];
    }
  }

  /** The first worker of a serial run, and the state it hands on. */
  function FirstRun(vehicle: string, plan: seq<DayRange>, inputs: seq<seq<Step>>, s: Shared, thread: nat): WorkerState
    requires |inputs| == |plan| > 0
  {
    Run(Spawn(thread, vehicle, plan[0], s.checked, s.found, s.running, s.recordFound), inputs[0])
  }

  function HandOn(w: WorkerState): Shared {
    Shared(w.checked, w.found, w.running, w.recordFound)
  }

  /**
    The undisturbed first worker: it counts a find, and sets `record_found`,
    exactly when it breaks out of its loop; if the flag was already set it
    issues no request.
   */
  lemma FirstRunQuiet(vehicle: string, plan: seq<DayRange>, inputs: seq<seq<Step>>, s: Shared, thread: nat)
    requires |inputs| == |plan| > 0 && AllQuiet(inputs)
    requires plan[0].first <= plan[0].last
    ensures var w := FirstRun(vehicle, plan, inputs, s, thread);
      && w.found == s.found + (if w.phase == Exited(true) then 1 else 0)
      && w.recordFound == (s.recordFound || w.phase == Exited(true))
      && (s.recordFound ==> w.queried == [] && w.phase != Exited(true))
  {
    var w0 := Spawn(thread, vehicle, plan[0], s.checked, s.found, s.running, s.recordFound);
    SpawnInv(thread, vehicle, plan[0], s.checked, s.found, s.running, s.recordFound);
    AllQuietSplit(inputs);
    QuietRunCounts(w0, inputs[0]);
    if s.recordFound {
      SpawnedAfterFindIdle(thread, vehicle, plan[0], s.checked, s.found, s.running, inputs[0]);
    }
  }

  /** Once `record_found` is set, no later worker issues a request and no further find is counted. */
  lemma {:induction false} SerialAfterFind(vehicle: string, plan: seq<DayRange>, inputs: seq<seq<Step>>, s: Shared, thread: nat)
    requires |inputs| == |plan| && AllQuiet(inputs)
    requires forall k :: 0 <= k < |plan| ==> plan[k].first <= plan[k].last
    requires s.recordFound
    ensures var r := RunSerial(vehicle, plan, inputs, s, thread);
      && r.0.recordFound && r.0.found == s.found
      && (forall k :: 0 <= k < |plan| ==> r.1[k].queried == [] && r.1[k].phase != Exited(true))
    decreases |plan|
  {
    if plan != [] {
      var w := FirstRun(vehicle, plan, inputs, s, thread);
      FirstRunQuiet(vehicle, plan, inputs, s, thread);
      AllQuietSplit(inputs);
      SerialAfterFind(vehicle, plan[1..], inputs[1..], HandOn(w), thread + 1);
      var rest := RunSerial(vehicle, plan[1..], inputs[1..], HandOn(w), thread + 1);
      var r := RunSerial(vehicle, plan, inputs, s, thread);
      assert r.1 == [w] + rest.1;
    }
  }

  /** Every worker after one that left `record_found` set issued no request. */
  ghost predicate LaterIdle(ws: seq<WorkerState>) {
    forall k, j :: 0 <= k < j < |ws| && ws[k].recordFound ==> ws[j].queried == []
  }

  /** Under the serial undisturbed schedule, a worker that leaves `record_found` set is followed only by workers that issue no request. */
  lemma {:induction false} SerialStopPropagates(vehicle: string, plan: seq<DayRange>, inputs: seq<seq<Step>>, s: Shared, thread: nat)
    requires |inputs| == |plan| && AllQuiet(inputs)
    requires forall k :: 0 <= k < |plan| ==> plan[k].first <= plan[k].last
    ensures LaterIdle(RunSerial(vehicle, plan, inputs, s, thread).1)
    decreases |plan|
  {
    if plan != [] {
      var w := FirstRun(vehicle, plan, inputs, s, thread);
      AllQuietSplit(inputs);
      SerialStopPropagates(vehicle, plan[1..], inputs[1..], HandOn(w), thread + 1);
      var rest := RunSerial(vehicle, plan[1..], inputs[1..], HandOn(w), thread + 1);
      var r := RunSerial(vehicle, plan, inputs, s, thread);
      assert r.1 == [w] + rest.1;
      if w.recordFound {
        SerialAfterFind(vehicle, plan[1..], inputs[1..], HandOn(w), thread + 1);
      }
      forall k, j | 0 <= k < j < |plan| && r.1[k].recordFound
        ensures r.1[j].queried == []
      {
        assert r.1[j] == rest.1[j - 1];
        if k == 0 {
          assert r.1[0] == w;
          assert j - 1 < |plan[1..]|;
          assert rest.1[j - 1].queried == [];
        } else {
          assert r.1[k] == rest.1[k - 1];
          assert LaterIdle(rest.1);
        }
      }
    }
  }

  /** Some worker of the run left its loop on a match or a fatal status. */
  ghost predicate SomeBroke(ws: seq<WorkerState>) {
    exists k :: 0 <= k < |ws| && ws[k].phase == Exited(true)
  }

  lemma SomeBrokeCons(w: WorkerState, ws: seq<WorkerState>)
    ensures SomeBroke([w] + ws) <==> w.phase == Exited(true) || SomeBroke(ws)
  {
    var all := [w] + ws;
    assert all[0] == w;
    if SomeBroke(ws) {
      var k :| 0 <= k < |ws| && ws[k].phase == Exited(true);
      assert all[k + 1] == ws[k];
    }
    if SomeBroke(all) {
      var k :| 0 <= k < |all| && all[k].phase == Exited(true);
      if k == 0 {
        assert all[0] == w;
      } else {
        assert ws[k - 1] == all[k];
      }
    }
  }

  /**
    Under the serial undisturbed schedule the find counter grows by at most
    one over the whole run, by one exactly when some worker broke out of its
    loop, and `record_found` ends set exactly when it was set or some worker broke.
   */
  lemma {:induction false} SerialFindsAtMostOne(vehicle: string, plan: seq<DayRange>, inputs: seq<seq<Step>>, s: Shared, thread: nat)
    requires |inputs| == |plan| && AllQuiet(inputs)
    requires forall k :: 0 <= k < |plan| ==> plan[k].first <= plan[k].last
    ensures var r := RunSerial(vehicle, plan, inputs, s, thread);
      && r.0.found == s.found + (if SomeBroke(r.1) then 1 else 0)
      && r.0.recordFound == (s.recordFound || SomeBroke(r.1))
    decreases |plan|
  {
    var r := RunSerial(vehicle, plan, inputs, s, thread);
    if plan == [] {
      assert !SomeBroke(r.1);
    } else {
      var w := FirstRun(vehicle, plan, inputs, s, thread);
      FirstRunQuiet(vehicle, plan, inputs, s, thread);
      AllQuietSplit(inputs);
      var rest := RunSerial(vehicle, plan[1..], inputs[1..], HandOn(w), thread + 1);
      assert r.1 == [w] + rest.1;
      SomeBrokeCons(w, rest.1);
      if w.recordFound {
        SerialAfterFind(vehicle, plan[1..], inputs[1..], HandOn(w), thread + 1);
        assert !SomeBroke(rest.1);
      } else {
        SerialFindsAtMostOne(vehicle, plan[1..], inputs[1..], HandOn(w), thread + 1);
      }
    }
  }

  /**
    When the coordinator has joined every worker it clears `is_running`
    (src/main.rs line 200). Started from a fresh state under the serial, undisturbed
    schedule, the status line then reads "RECORD FOUND!" exactly when some
    worker left its loop on a match or a fatal status, and "Ready" otherwise.
   */
  lemma FinalStatus(vehicle: string, plan: seq<DayRange>, inputs: seq<seq<Step>>, total: nat)
    requires |inputs| == |plan| && AllQuiet(inputs)
    requires forall k :: 0 <= k < |plan| ==> plan[k].first <= plan[k].last
    ensures var r := RunSerial(vehicle, plan, inputs, Shared(0, 0, true, false), 1);
      var text := StatusText(false, r.0.recordFound, r.0.found, r.0.checked, total);
      text == (if SomeBroke(r.1) then RecordFoundText else ReadyText)
  {
    SerialFindsAtMostOne(vehicle, plan, inputs, Shared(0, 0, true, false), 1);
  }
}

=== FILE: eventlog.dfy ===
/**
  The console log shared by the checker and its workers: structured entries
  and the retention rule applied on every append (push the entry, then drop
  the oldest block once the log grows past its cap). Wall-clock timestamps
  are not modelled; an entry is its level and its message.
 */
module EventLog {
  import opened Numbers

  /** Most entries the log keeps before it evicts. */
  const Cap: nat := 1000

  /** How many of the oldest entries one eviction removes. */
  const EvictBlock: nat := 100

  datatype Level = Info | Success | Error | Warning

  /** The messages the checker writes, with the values each one interpolates. Dates are day numbers. */
  datatype Message =
    // start_checking: input gate
    | EnterVehicle
    | BadStartDate
    | BadEndDate
    | StartAfterEnd
    // start_checking: the plan
    | StartingCheck(vehicle: string)
    | DateSpan(first: int, last: int)
    | DayCount(total: int)
    | ThreadPlan(threads: nat, daysPerThread: int)
    | ResultsDirectory
    | AutoStopNotice
    | Rule(ch: char)
    | ThreadRange(thread: nat, first: int, last: int)
    // stop_checking
    | StoppingAll
    // check_vehicle_thread
    | HttpError(thread: nat, status: nat, vehicle: string, date: int)
    | ErrorPreview(text: string)
    | StoppingOnHttpError(thread: nat, status: nat)
    | Progress(thread: nat, checked: nat, date: int)
    | RecordFound(thread: nat, vehicle: string, date: int)
    | RecordFoundBanner
    | MatchPreview(text: string)
    | TransportFailure(thread: nat, date: int, reason: string)
    | StoppedRecordFound(thread: nat)
    | Completed(thread: nat, checked: nat)
    // save_response
    | Saved(thread: nat, status: nat, vehicle: string, date: int)   // the file named by `Responses.Filename`
    | SaveFailed(thread: nat)

  datatype Entry = Entry(level: Level, message: Message)

  /**
    `log` / `log_static`: push `e`, then drop the oldest `EvictBlock`
    entries if the log now holds more than `Cap`.
   */
  function Append<T>(log: seq<T>, e: T): (r: seq<T>)
    ensures |r| > 0 && r[|r| - 1] == e
    ensures |log| < Cap ==> r == log + [e]
    ensures |log| >= Cap ==> |r| == |log| + 1 - EvictBlock
                             && forall i :: 0 <= i < |r| ==> r[i] == (log + [e])[i + EvictBlock]
    ensures |log| <= Cap ==> |r| <= Cap
  {
    var grown := log + [e];
    if |grown| > Cap then grown[EvictBlock..] else grown
  }

  /** Appending every entry of `es` in order, as one writer's successive `log_static` calls do. */
  function AppendAll<T>(log: seq<T>, es: seq<T>): seq<T>
    decreases |es|
  {
    if es == [] then log else AppendAll(Append(log, es[0]), es[1..])
  }

  /** `a` ends with `b`. */
  ghost predicate IsSuffix<T>(b: seq<T>, a: seq<T>) {
    |b| <= |a| && a[|a| - |b|..] == b
  }

  lemma SuffixTransitive<T>(c: seq<T>, b: seq<T>, a: seq<T>)
    requires IsSuffix(c, b) && IsSuffix(b, a)
    ensures IsSuffix(c, a)
  {
    assert a[|a| - |c|..] == a[|a| - |b|..][|b| - |c|..];
  }

  lemma SuffixExtend<T>(b: seq<T>, a: seq<T>, t: seq<T>)
    requires IsSuffix(b, a)
    ensures IsSuffix(b + t, a + t)
  {
    var w := a + t;
    assert w[|w| - |b + t|..] == a[|a| - |b|..] + t;
  }

  lemma ConcatHead<T>(a: seq<T>, s: seq<T>)
    requires |s| > 0
    ensures (a + [s[0]]) + s[1..] == a + s
  {
    assert s == [s[0]] + s[1..];
  }

  /** Entries the log is guaranteed to keep after an eviction. */
  const Kept: nat := Cap + 1 - EvictBlock

  /** One append keeps the newest entries of the old log and never shrinks it below `Kept`. */
  lemma AppendRetains<T>(log: seq<T>, e: T)
    requires |log| <= Cap
    ensures IsSuffix(Append(log, e), log + [e])
    ensures |Append(log, e)| >= Min(|log| + 1, Kept)
  {
  }

  /**
    A log that starts within the cap stays within it, keeps only entries
    written to it (a suffix of the old log followed by the new entries), and
    retains at least the newest `Kept` of them.
   */
  lemma {:induction false} AppendAllRetains<T>(log: seq<T>, es: seq<T>)
    requires |log| <= Cap
    ensures |AppendAll(log, es)| <= Cap
    ensures IsSuffix(AppendAll(log, es), log + es)
    ensures |AppendAll(log, es)| >= Min(|log| + |es|, Kept)
    decreases |es|
  {
    if es != [] {
      var next := Append(log, es[0]);
      AppendRetains(log, es[0]);
      AppendAllRetains(next, es[1..]);
      RetainStep(log, es, next, AppendAll(next, es[1..]));
    }
  }

  /** Chains the first append's retention with the rest's. */
  lemma RetainStep<T>(log: seq<T>, es: seq<T>, next: seq<T>, r: seq<T>)
    requires |es| > 0
    requires IsSuffix(next, log + [es[0]]) && |next| >= Min(|log| + 1, Kept)
    requires IsSuffix(r, next + es[1..]) && |r| >= Min(|next| + |es| - 1, Kept)
    ensures IsSuffix(r, log + es)
    ensures |r| >= Min(|log| + |es|, Kept)
  {
    SuffixExtend(next, log + [es[0]], es[1..]);
    ConcatHead(log, es);
    SuffixTransitive(r, next + es[1..], log + es);
  }

  /** Entries written after a log within its cap are all still present at its end, when there are few enough of them. */
  lemma NewestEntriesKept<T>(log: seq<T>, es: seq<T>)
    requires |log| <= Cap
    requires |es| <= Kept
    ensures IsSuffix(es, AppendAll(log, es))
  {
    AppendAllRetains(log, es);
    var r := AppendAll(log, es);
    var whole := log + es;
    assert r == whole[|whole| - |r|..];
    assert r[|r| - |es|..] == whole[|whole| - |es|..];
    assert whole[|whole| - |es|..] == es;
  }
}

=== FILE: numbers.dfy ===
/** Integer helpers shared by the range partition, the log and the text functions. */
module Numbers {

  /** The smaller of two integers (`std::cmp::min`). */
  function Min(a: int, b: int): int {
    if a < b then a else b
  }
}

=== FILE: ranges.dfy ===
/**
  Splitting the inclusive day range `[start, end]` among `n` workers, as the
  spawn loop of `start_checking` does it: every worker gets `total / n`
  days, the first `total % n` of them one more, each sub-range starts the day
  after the previous one ends, its end is clamped to `end`, and the loop stops
  once the next start lies past `end`. Days are integer day numbers.
 */
module Ranges {
  import opened Numbers

  /** An inclusive span of day numbers, `first..last`. */
  datatype DayRange = DayRange(first: int, last: int)

  function Days(r: DayRange): int {
    r.last - r.first + 1
  }

  predicate InRange(r: DayRange, d: int) {
    r.first <= d <= r.last
  }

  /** Number of days in the inclusive range `[start, end]`. */
  function TotalDays(start: int, end: int): int {
    end - start + 1
  }

  /** Days assigned to worker `i` of `n`: the base share, plus one for the first `total % n` workers. */
  function Share(total: int, n: nat, i: nat): int
    requires n >= 1
  {
    total / n + (if i < total % n then 1 else 0)
  }

  /** Days still unassigned when the loop reaches worker `i`. */
  ghost function Remaining(total: int, n: nat, i: nat): int
    requires n >= 1 && i <= n
  {
    (n - i) * (total / n) + (if i < total % n then total % n - i else 0)
  }

  /** Arithmetic of one loop iteration: the share fits in what remains, and the loop stops exactly at the last worker with work. */
  lemma RemainingStep(total: int, n: nat, i: nat)
    requires n >= 1 && total >= 1 && i < n
    requires Remaining(total, n, i) >= 1
    ensures i < Min(n, total)
    ensures 1 <= Share(total, n, i) <= Remaining(total, n, i)
    ensures Remaining(total, n, i + 1) == Remaining(total, n, i) - Share(total, n, i)
    ensures Remaining(total, n, i + 1) == 0 <==> i + 1 == Min(n, total)
  {
    var q := total / n;
    var r := total % n;
    DivMod(total, n);
    ProductFacts(n, i, q);
    assert Remaining(total, n, i) == (n - i) * q + (if i < r then r - i else 0);
    assert Remaining(total, n, i + 1) == (n - (i + 1)) * q + (if i + 1 < r then r - (i + 1) else 0);
    assert Share(total, n, i) == q + (if i < r then 1 else 0);
    StepLinear(total, n, i, q, r, (n - i) * q, (n - (i + 1)) * q, n * q);
  }

  lemma DivMod(total: int, n: nat)
    requires n >= 1
    ensures total == n * (total / n) + total % n && 0 <= total % n < n
  {
  }

  /** The facts about the products `(n - i) * q` and `n * q` that one loop step needs. */
  lemma ProductFacts(n: nat, i: nat, q: int)
    requires i < n && q >= 0
    ensures (n - i) * q == (n - (i + 1)) * q + q
    ensures q >= 1 ==> (n - (i + 1)) * q >= n - (i + 1) && n * q >= n
    ensures q == 0 ==> (n - (i + 1)) * q == 0 && n * q == 0
    ensures i + 1 == n ==> (n - (i + 1)) * q == 0
  {
    var a := n - (i + 1);
    assert n - i == a + 1;
    if q >= 1 {
      MulAtLeast(a, q);
      MulAtLeast(n, q);
    }
  }

  /** One loop step in linear terms: `now` and `after` stand for `(n - i) * q` and `(n - i - 1) * q`, `all` for `n * q`. */
  lemma StepLinear(total: int, n: nat, i: nat, q: int, r: int, now: int, after: int, all: int)
    requires i < n && 0 <= r < n && q >= 0 && total == all + r
    requires now == after + q
    requires q >= 1 ==> after >= n - (i + 1) && all >= n
    requires q == 0 ==> after == 0 && all == 0
    requires i + 1 == n ==> after == 0
    requires now + (if i < r then r - i else 0) >= 1
    ensures i < Min(n, total)
    ensures 1 <= q + (if i < r then 1 else 0) <= now + (if i < r then r - i else 0)
    ensures after + (if i + 1 < r then r - (i + 1) else 0)
            == now + (if i < r then r - i else 0) - (q + (if i < r then 1 else 0))
    ensures after + (if i + 1 < r then r - (i + 1) else 0) == 0 <==> i + 1 == Min(n, total)
  {
  }

  lemma MulAtLeast(a: nat, q: int)
    requires q >= 1
    ensures a * q >= a
  {
    if a > 0 {
      MulAtLeast(a - 1, q);
      assert a * q == (a - 1) * q + q;
    }
  }

  /**
    Iterations `i, i + 1, …` of the spawn loop, entered with `current_start`
    equal to `cur`; each iteration yields the range one worker is spawned with.
    The requires are the loop invariant: `cur` is still within the range and
    exactly the days not yet assigned lie ahead of it.
   */
  function SpawnFrom(start: int, end: int, n: nat, i: nat, cur: int): (rs: seq<DayRange>)
    requires n >= 1 && start <= end && i < n
    requires cur <= end
    requires TotalDays(cur, end) == Remaining(TotalDays(start, end), n, i)
    ensures |rs| == Min(n, TotalDays(start, end)) - i
    ensures |rs| >= 1 && rs[0].first == cur && rs[|rs| - 1].last == end
    ensures forall k :: 0 <= k < |rs| ==> Days(rs[k]) == Share(TotalDays(start, end), n, i + k)
    ensures Contiguous(rs)
    decreases n - i
  {
    var total := TotalDays(start, end);
    RemainingStep(total, n, i);
    var days := Share(total, n, i);
    var tentative := cur + days - 1;
    var last := if tentative > end then end else tentative;
    var next := last + 1;
    assert last == tentative;
    assert TotalDays(next, end) == Remaining(total, n, i + 1);
    if next > end || i + 1 == n then
      assert i + 1 == Min(n, total);
      [DayRange(cur, last)]
    else
      var rest := SpawnFrom(start, end, n, i + 1, next);
      var rs := [DayRange(cur, last)] + rest;
      assert forall k :: 1 <= k < |rs| ==> rs[k] == rest[k - 1];
      assert forall k :: 1 <= k < |rs| ==> Days(rs[k]) == Share(total, n, i + 1 + (k - 1));
      rs
  }

  /** Each range begins the day after its predecessor ends. */
  predicate Contiguous(rs: seq<DayRange>) {
    forall k :: 1 <= k < |rs| ==> rs[k].first == rs[k - 1].last + 1
  }

  /** The sub-ranges `start_checking` spawns workers for (src/main.rs lines 120-122 and 150-191). */
  function Partition(start: int, end: int, n: nat): (rs: seq<DayRange>)
    requires n >= 1 && start <= end
    ensures |rs| == Min(n, TotalDays(start, end))
    ensures rs[0].first == start && rs[|rs| - 1].last == end
    ensures forall k :: 0 <= k < |rs| ==> Days(rs[k]) == Share(TotalDays(start, end), n, k)
    ensures forall k :: 0 <= k < |rs| ==> Days(rs[k]) >= 1
    ensures Contiguous(rs)
  {
    var total := TotalDays(start, end);
    assert Remaining(total, n, 0) == total by {
      assert total == n * (total / n) + total % n;
    }
    var rs := SpawnFrom(start, end, n, 0, start);
    assert forall k :: 0 <= k < |rs| ==> Days(rs[k]) >= 1 by {
      forall k | 0 <= k < |rs|
        ensures Days(rs[k]) >= 1
      {
        ShareAtLeastOne(total, n, k);
      }
    }
    rs
  }

  /** Every worker the loop reaches has at least one day. */
  lemma ShareAtLeastOne(total: int, n: nat, k: nat)
    requires n >= 1 && total >= 1 && k < Min(n, total)
    ensures Share(total, n, k) >= 1
  {
    if total / n == 0 {
      assert total == n * (total / n) + total % n;
    }
  }

  /** Earlier workers get at least as many days as later ones, and never more than one day more. */
  lemma SharesBalanced(start: int, end: int, n: nat, i: nat, j: nat)
    requires n >= 1 && start <= end
    requires i < j < |Partition(start, end, n)|
    ensures Days(Partition(start, end, n)[j]) <= Days(Partition(start, end, n)[i]) <= Days(Partition(start, end, n)[j]) + 1
  {
    var rs := Partition(start, end, n);
    assert Days(rs[i]) == Share(TotalDays(start, end), n, i);
    assert Days(rs[j]) == Share(TotalDays(start, end), n, j);
    ShareOrder(TotalDays(start, end), n, i, j);
  }

  lemma ShareOrder(total: int, n: nat, i: nat, j: nat)
    requires n >= 1 && i < j
    ensures Share(total, n, j) <= Share(total, n, i) <= Share(total, n, j) + 1
  {
    var q := total / n;
    var r := total % n;
    assert Share(total, n, i) == q + (if i < r then 1 else 0);
    assert Share(total, n, j) == q + (if j < r then 1 else 0);
  }

  /** Ranges of a contiguous run of non-empty ranges are strictly ordered. */
  lemma {:induction false} ContiguousAscending(rs: seq<DayRange>, i: nat, j: nat)
    requires Contiguous(rs)
    requires forall k :: 0 <= k < |rs| ==> rs[k].first <= rs[k].last
    requires i < j < |rs|
    ensures rs[i].last < rs[j].first
    decreases j - i
  {
    if i + 1 < j {
      ContiguousAscending(rs, i, j - 1);
    }
  }

  /** A contiguous run of non-empty ranges covers exactly the days from its first start to its last end. */
  lemma {:induction false} ContiguousCovers(rs: seq<DayRange>, d: int)
    requires |rs| >= 1 && Contiguous(rs)
    requires forall k :: 0 <= k < |rs| ==> rs[k].first <= rs[k].last
    ensures (exists k :: 0 <= k < |rs| && InRange(rs[k], d)) <==> rs[0].first <= d <= rs[|rs| - 1].last
    decreases |rs|
  {
    if |rs| > 1 {
      var front := rs[..|rs| - 1];
      assert Contiguous(front);
      ContiguousCovers(front, d);
      if exists k :: 0 <= k < |rs| && InRange(rs[k], d) {
        var k :| 0 <= k < |rs| && InRange(rs[k], d);
        if k < |rs| - 1 {
          assert InRange(front[k], d);
          ContiguousAscending(rs, k, |rs| - 1);
        } else {
          ContiguousAscending(rs, 0, k);
        }
      }
      if rs[0].first <= d <= rs[|rs| - 1].last && d <= front[|front| - 1].last {
        var k :| 0 <= k < |front| && InRange(front[k], d);
        assert InRange(rs[k], d);
      }
    }
  }

  /**
    The spawned ranges tile `[start, end]`: every day of the range lies in
    exactly one of them, no day outside it lies in any, and they are in
    ascending order.
   */
  lemma PartitionTiles(start: int, end: int, n: nat, d: int)
    requires n >= 1 && start <= end
    ensures (exists k :: 0 <= k < |Partition(start, end, n)| && InRange(Partition(start, end, n)[k], d))
            <==> start <= d <= end
    ensures forall i, j :: 0 <= i < j < |Partition(start, end, n)| ==>
              Partition(start, end, n)[i].last < Partition(start, end, n)[j].first
    ensures forall i, j ::
              (0 <= i < |Partition(start, end, n)| && 0 <= j < |Partition(start, end, n)|
               && InRange(Partition(start, end, n)[i], d) && InRange(Partition(start, end, n)[j], d)) ==> i == j
  {
    ContiguousTiles(Partition(start, end, n), d);
  }

  /** A contiguous run of non-empty ranges tiles the span from its first start to its last end. */
  lemma ContiguousTiles(rs: seq<DayRange>, d: int)
    requires |rs| >= 1 && Contiguous(rs)
    requires forall k :: 0 <= k < |rs| ==> rs[k].first <= rs[k].last
    ensures (exists k :: 0 <= k < |rs| && InRange(rs[k], d)) <==> rs[0].first <= d <= rs[|rs| - 1].last
    ensures forall i, j :: 0 <= i < j < |rs| ==> rs[i].last < rs[j].first
    ensures forall i, j :: (0 <= i < |rs| && 0 <= j < |rs| && InRange(rs[i], d) && InRange(rs[j], d)) ==> i == j
  {
    ContiguousCovers(rs, d);
    forall i, j | 0 <= i < j < |rs|
      ensures rs[i].last < rs[j].first
    {
      ContiguousAscending(rs, i, j);
    }
  }

  /** Sum of the lengths of `rs`. */
  function SumDays(rs: seq<DayRange>): int {
    if rs == [] then 0 else SumDays(rs[..|rs| - 1]) + Days(rs[|rs| - 1])
  }

  /** The lengths of a contiguous run add up to the span it covers. */
  lemma {:induction false} ContiguousSum(rs: seq<DayRange>)
    requires |rs| >= 1 && Contiguous(rs)
    ensures SumDays(rs) == rs[|rs| - 1].last - rs[0].first + 1
    decreases |rs|
  {
    if |rs| > 1 {
      var front := rs[..|rs| - 1];
      assert Contiguous(front);
      ContiguousSum(front);
    }
  }

  /** Together the workers are assigned every day of the range: the total the progress display counts against. */
  lemma PartitionSum(start: int, end: int, n: nat)
    requires n >= 1 && start <= end
    ensures SumDays(Partition(start, end, n)) == TotalDays(start, end)
  {
    ContiguousSum(Partition(start, end, n));
  }

  /** Ten days over three workers: 4, 3 and 3 days, in order. */
  lemma TenDaysThreeWorkers()
    ensures Partition(1, 10, 3) == [DayRange(1, 4), DayRange(5, 7), DayRange(8, 10)]
  {
    var rs := Partition(1, 10, 3);
    assert Days(rs[0]) == 4 && Days(rs[1]) == 3 && Days(rs[2]) == 3;
  }

  /** More workers than days: one single-day range per day, and no more. */
  lemma MoreWorkersThanDays()
    ensures Partition(7, 8, 5) == [DayRange(7, 7), DayRange(8, 8)]
  {
    var rs := Partition(7, 8, 5);
    assert Days(rs[0]) == 1 && Days(rs[1]) == 1;
  }
}

=== FILE: responses.dfy ===
/**
  What a worker makes of one reply from the registration service: the
  three-way classification of `check_vehicle_thread`, the whitespace-
  flattened preview it logs, and the name `save_response` gives the saved
  body.
 */
module Responses {
  import opened Numbers
  import opened Text

  /** HTTP status codes are `u16`. */
  type Status = s: int | 0 <= s < 0x1_0000

  const Ok: Status := 200

  /** The two phrases of the service's "no record" page; both upper-case. */
  const NoRecordPhrase: string := "NO RECORD FOUND"
  const ContactPhrase: string := "PLEASE CONTACT EXCISE"

  /** The result of one request: no response at all, or a status with its body text. */
  datatype Reply = TransportError(reason: string) | Response(status: Status, body: string)

  /** How a received response is treated. */
  datatype Verdict =
    | Fatal(status: Status)   // any non-200 status stops the whole search
    | NoRecord                // the service's "no record" page
    | Match                   // a 200 page that is not the "no record" page

  /** The upper-cased body holds both phrases of the "no record" page. */
  predicate IsNoRecordPage(body: string) {
    var upper := Upper(body);
    Contains(upper, NoRecordPhrase) && Contains(upper, ContactPhrase)
  }

  /** In src/main.rs lines 247 and 261-268: status first, then the two substring tests on the upper-cased body. */
  function Classify(status: Status, body: string): (v: Verdict)
    ensures v.Fatal? <==> status != Ok
    ensures v.Fatal? ==> v.status == status
    ensures v == NoRecord <==>
              status == Ok && OccursIgnoringCase(NoRecordPhrase, body) && OccursIgnoringCase(ContactPhrase, body)
    ensures v == Match <==>
              status == Ok && !(OccursIgnoringCase(NoRecordPhrase, body) && OccursIgnoringCase(ContactPhrase, body))
  {
    OccursInUpperIff(NoRecordPhrase, body);
    OccursInUpperIff(ContactPhrase, body);
    if status != Ok then Fatal(status)
    else if IsNoRecordPage(body) then NoRecord
    else Match
  }

  /** Bodies that agree up to ASCII case are classified alike. */
  lemma ClassifyIgnoresCase(status: Status, a: string, b: string)
    requires Upper(a) == Upper(b)
    ensures Classify(status, a) == Classify(status, b)
  {
  }

  /** The service's own page, in lower case, is recognised as "no record". */
  lemma LowerCaseNoRecordPage()
    ensures Classify(200, "<p>" + "no record found" + ". " + "please contact excise" + " office</p>") == NoRecord
  {
    var lowerNoRecord := "no record found";
    var lowerContact := "please contact excise";
    var body := "<p>" + lowerNoRecord + ". " + lowerContact + " office</p>";
    assert Upper(lowerNoRecord) == NoRecordPhrase;
    assert Upper(lowerContact) == ContactPhrase;
    assert body[3..18] == lowerNoRecord;
    assert body[20..41] == lowerContact;
    UpperSlice(body, 3, 18);
    UpperSlice(body, 20, 41);
    assert OccursAt(NoRecordPhrase, Upper(body), 3);
    assert OccursAt(ContactPhrase, Upper(body), 20);
  }

  /** A page with only one of the two phrases is a match. */
  lemma OnePhraseIsMatch()
    ensures Classify(200, "No record found") == Match
  {
    assert !OccursAt(ContactPhrase, Upper("No record found"), 0);
  }

  /** Characters the preview flattens to a space. */
  predicate Flattened(c: char) {
    c == '\n' || c == '\t'
  }

  /** Longest preview of a body that is logged. */
  const PreviewLength: nat := 300

  /** In src/main.rs lines 254-255 and 278-279: the first 300 characters, newlines then tabs replaced by spaces. */
  function Preview(body: string): (p: string)
    ensures |p| == Min(|body|, PreviewLength)
    ensures forall i :: 0 <= i < |p| ==> !Flattened(p[i])
    ensures forall i :: 0 <= i < |p| ==> p[i] == if Flattened(body[i]) then ' ' else body[i]
  {
    ReplaceChar(ReplaceChar(Take(body, PreviewLength), '\n', ' '), '\t', ' ')
  }

  /** A preview is its own preview: it is already short and flat. */
  lemma PreviewIdempotent(body: string)
    ensures Preview(Preview(body)) == Preview(body)
  {
  }

  /**
    In src/main.rs lines 349-354: `HTTP<status>_` for a non-200 status, then the vehicle,
    an underscore, the date as rendered and `.html`.
   */
  function Filename(status: Status, vehicle: string, date: string): (name: string)
    ensures status == Ok ==> name == vehicle + "_" + date + ".html"
    ensures status != Ok ==> name == "HTTP" + Decimal(status) + "_" + vehicle + "_" + date + ".html"
  {
    var prefix := if status != Ok then "HTTP" + Decimal(status) + "_" else "";
    prefix + vehicle + "_" + date + ".html"
  }

  /** For one vehicle and date, the saved file's name determines the status it was saved under. */
  lemma FilenameDeterminesStatus(s: Status, t: Status, vehicle: string, date: string)
    ensures Filename(s, vehicle, date) == Filename(t, vehicle, date) <==> s == t
  {
    var tail := "_" + vehicle + "_" + date + ".html";
    if Filename(s, vehicle, date) == Filename(t, vehicle, date) && s != t {
      if s != Ok && t != Ok {
        var a := "HTTP" + Decimal(s);
        var b := "HTTP" + Decimal(t);
        assert a + tail == Filename(s, vehicle, date);
        assert b + tail == Filename(t, vehicle, date);
        assert |a| == |b|;
        assert a == (a + tail)[..|a|];
        assert Decimal(s) == a[4..];
        assert Decimal(s) == Decimal(t);
        DecimalInjective(s, t);
      }
    }
  }
}

=== FILE: text.dfy ===
/**
  String helpers the checker applies to user input and to response bodies:
  trimming, upper-casing, substring search, character replacement and the
  decimal rendering of unsigned integers. Strings are sequences of Unicode
  scalar values, which is what Rust's `char` is.
 */
module Text {
  import opened Numbers

  /** Rust's `char::is_whitespace`: the Unicode White_Space property. */
  predicate IsWhitespace(c: char) {
    || ('\t' <= c <= '\r')
    || c == ' '
    || c == '\U{85}'
    || c == '\U{A0}'
    || c == '\U{1680}'
    || ('\U{2000}' <= c <= '\U{200A}')
    || c == '\U{2028}'
    || c == '\U{2029}'
    || c == '\U{202F}'
    || c == '\U{205F}'
    || c == '\U{3000}'
  }

  predicate AllWhitespace(s: string) {
    forall i :: 0 <= i < |s| ==> IsWhitespace(s[i])
  }

  lemma AllWhitespaceConcat(a: string, b: string)
    ensures AllWhitespace(a + b) <==> AllWhitespace(a) && AllWhitespace(b)
  {
    if AllWhitespace(a + b) {
      assert forall i :: 0 <= i < |a| ==> a[i] == (a + b)[i];
      assert forall i :: 0 <= i < |b| ==> b[i] == (a + b)[|a| + i];
    }
  }

  /** Drops leading whitespace (`str::trim_start`). */
  function TrimStart(s: string): string {
    if |s| > 0 && IsWhitespace(s[0]) then TrimStart(s[1..]) else s
  }

  /** Drops trailing whitespace (`str::trim_end`). */
  function TrimEnd(s: string): string {
    if |s| > 0 && IsWhitespace(s[|s| - 1]) then TrimEnd(s[..|s| - 1]) else s
  }

  /** `TrimStart` cuts a whitespace-only prefix and leaves no whitespace at the front. */
  lemma {:induction false} TrimStartShape(s: string)
    ensures |TrimStart(s)| <= |s| && TrimStart(s) == s[|s| - |TrimStart(s)|..]
    ensures AllWhitespace(s[..|s| - |TrimStart(s)|])
    ensures TrimStart(s) == [] || !IsWhitespace(TrimStart(s)[0])
    decreases |s|
  {
    if |s| > 0 && IsWhitespace(s[0]) {
      var back := s[1..];
      var r := TrimStart(back);
      assert TrimStart(s) == r;
      TrimStartShape(back);
      assert r == s[|s| - |r|..];
      var cut := back[..|back| - |r|];
      assert s[..|s| - |r|] == [s[0]] + cut;
      AllWhitespaceConcat([s[0]], cut);
    } else {
      assert s[..0] == [];
    }
  }

  /** `TrimEnd` cuts a whitespace-only suffix and leaves no whitespace at the back. */
  lemma {:induction false} TrimEndShape(s: string)
    ensures |TrimEnd(s)| <= |s| && TrimEnd(s) == s[..|TrimEnd(s)|]
    ensures AllWhitespace(s[|TrimEnd(s)|..])
    ensures TrimEnd(s) == [] || !IsWhitespace(TrimEnd(s)[|TrimEnd(s)| - 1])
    decreases |s|
  {
    if |s| > 0 && IsWhitespace(s[|s| - 1]) {
      var front := s[..|s| - 1];
      var r := TrimEnd(front);
      assert TrimEnd(s) == r;
      TrimEndShape(front);
      assert r == s[..|r|];
      var cut := front[|r|..];
      assert s[|r|..] == cut + [s[|s| - 1]];
      AllWhitespaceConcat(cut, [s[|s| - 1]]);
    } else {
      assert s[|s|..] == [];
    }
  }

  /** `str::trim`: the longest slice of `s` that neither starts nor ends with whitespace. */
  function Trim(s: string): string {
    TrimEnd(TrimStart(s))
  }

  /** `r` is the slice of `s` at offset `i`, and everything cut away on either side is whitespace. */
  predicate TrimmedAt(s: string, r: string, i: int) {
    0 <= i <= |s| - |r| && r == s[i..i + |r|] && AllWhitespace(s[..i]) && AllWhitespace(s[i + |r|..])
  }

  /** Where `Trim(s)` sits in `s`. */
  lemma TrimOffset(s: string) returns (i: int)
    ensures TrimmedAt(s, Trim(s), i)
  {
    var t := TrimStart(s);
    var r := TrimEnd(t);
    TrimStartShape(s);
    TrimEndShape(t);
    i := |s| - |t|;
    TrimmedAtSuffix(s, t, r, i);
  }

  /** A prefix `r` of the suffix `t` of `s`, both cut at whitespace, is `s` trimmed at the suffix's offset. */
  lemma TrimmedAtSuffix(s: string, t: string, r: string, i: int)
    requires 0 <= i <= |s| && t == s[i..] && AllWhitespace(s[..i])
    requires |r| <= |t| && r == t[..|r|] && AllWhitespace(t[|r|..])
    ensures TrimmedAt(s, r, i)
  {
    assert t[..|r|] == s[i..i + |r|];
    assert t[|r|..] == s[i + |r|..];
  }

  /** The trimmed string neither starts nor ends with whitespace. */
  lemma TrimEnds(s: string)
    ensures Trim(s) == [] || (!IsWhitespace(Trim(s)[0]) && !IsWhitespace(Trim(s)[|Trim(s)| - 1]))
  {
    var t := TrimStart(s);
    var r := TrimEnd(t);
    TrimStartShape(s);
    TrimEndShape(t);
    if r != [] {
      assert r[0] == t[0];
    }
  }

  /** The trimmed string is a slice of the input, cut only at whitespace, with no whitespace left at either end. */
  lemma TrimSlice(s: string)
    ensures exists i :: TrimmedAt(s, Trim(s), i)
    ensures Trim(s) == [] || (!IsWhitespace(Trim(s)[0]) && !IsWhitespace(Trim(s)[|Trim(s)| - 1]))
  {
    var i := TrimOffset(s);
    TrimEnds(s);
  }

  /** A string trims to nothing exactly when it is all whitespace. */
  lemma TrimEmptyIff(s: string)
    ensures Trim(s) == [] <==> AllWhitespace(s)
  {
    var i := TrimOffset(s);
    if Trim(s) == [] {
      assert s == s[..i] + s[i..];
      AllWhitespaceConcat(s[..i], s[i..]);
    } else {
      TrimEnds(s);
      assert Trim(s)[0] == s[i];
    }
  }

  /** Upper-case mapping of one character; only ASCII letters change. */
  function UpperChar(c: char): char {
    if 'a' <= c <= 'z' then (c as int - 32) as char else c
  }

  /** `str::to_uppercase`, restricted to the ASCII letters. */
  function Upper(s: string): (r: string)
    ensures |r| == |s|
    ensures forall i :: 0 <= i < |s| ==> r[i] == UpperChar(s[i])
  {
    seq(|s|, i requires 0 <= i < |s| => UpperChar(s[i]))
  }

  /** Upper-casing neither creates nor removes whitespace. */
  lemma UpperCharWhitespace(c: char)
    ensures IsWhitespace(UpperChar(c)) <==> IsWhitespace(c)
  {
  }

  /** Upper-casing a string that neither starts nor ends with whitespace keeps it so. */
  lemma UpperKeepsEnds(t: string)
    requires t != [] && !IsWhitespace(t[0]) && !IsWhitespace(t[|t| - 1])
    ensures !IsWhitespace(Upper(t)[0]) && !IsWhitespace(Upper(t)[|t| - 1])
  {
    UpperCharWhitespace(t[0]);
    UpperCharWhitespace(t[|t| - 1]);
  }

  /** Upper-casing twice is upper-casing once. */
  lemma UpperIdempotent(s: string)
    ensures Upper(Upper(s)) == Upper(s)
  {
  }

  /** Upper-casing commutes with taking a slice. */
  lemma UpperSlice(s: string, i: int, j: int)
    requires 0 <= i <= j <= |s|
    ensures Upper(s)[i..j] == Upper(s[i..j])
  {
  }

  /** `pat` sits in `s` at offset `i`. */
  predicate OccursAt(pat: string, s: string, i: int) {
    0 <= i && i + |pat| <= |s| && s[i..i + |pat|] == pat
  }

  /** `pat` is a substring of `s`: the reference definition of substring search. */
  ghost predicate Occurs(pat: string, s: string) {
    exists i :: OccursAt(pat, s, i)
  }

  /** An occurrence either starts at the front or lies within the tail. */
  lemma OccursSplit(pat: string, s: string)
    requires |s| > 0
    ensures Occurs(pat, s) <==> OccursAt(pat, s, 0) || Occurs(pat, s[1..])
  {
    if Occurs(pat, s) && !OccursAt(pat, s, 0) {
      var i :| OccursAt(pat, s, i);
      assert s[1..][i - 1..i - 1 + |pat|] == s[i..i + |pat|];
      assert OccursAt(pat, s[1..], i - 1);
    }
    if Occurs(pat, s[1..]) {
      var i :| OccursAt(pat, s[1..], i);
      assert s[1..][i..i + |pat|] == s[i + 1..i + 1 + |pat|];
      assert OccursAt(pat, s, i + 1);
    }
  }

  /** `str::contains` with a string pattern, as a left-to-right search. */
  function Contains(s: string, pat: string): (b: bool)
    ensures b <==> Occurs(pat, s)
    decreases |s|
  {
    if |pat| > |s| then
      assert forall i :: !OccursAt(pat, s, i);
      false
    else if s[..|pat|] == pat then
      assert OccursAt(pat, s, 0);
      true
    else
      OccursSplit(pat, s);
      Contains(s[1..], pat)
  }

  /** `pat` sits in `s` at offset `i` when both are compared without regard to ASCII case. */
  predicate OccursAtIgnoringCase(pat: string, s: string, i: int) {
    0 <= i && i + |pat| <= |s| && Upper(s[i..i + |pat|]) == Upper(pat)
  }

  /** `pat` is a substring of `s` up to ASCII case. */
  ghost predicate OccursIgnoringCase(pat: string, s: string) {
    exists i :: OccursAtIgnoringCase(pat, s, i)
  }

  /** Searching an upper-cased haystack for an upper-case pattern is a case-insensitive search. */
  lemma OccursInUpperIff(pat: string, s: string)
    requires Upper(pat) == pat
    ensures Occurs(pat, Upper(s)) <==> OccursIgnoringCase(pat, s)
  {
    if Occurs(pat, Upper(s)) {
      var i :| OccursAt(pat, Upper(s), i);
      UpperSlice(s, i, i + |pat|);
      assert OccursAtIgnoringCase(pat, s, i);
    }
    if OccursIgnoringCase(pat, s) {
      var i :| OccursAtIgnoringCase(pat, s, i);
      UpperSlice(s, i, i + |pat|);
      assert OccursAt(pat, Upper(s), i);
    }
  }

  /** Every occurrence of `from` replaced by `to` (`str::replace` with one-character arguments). */
  function ReplaceChar(s: string, from: char, to: char): (r: string)
    ensures |r| == |s|
    ensures forall i :: 0 <= i < |s| ==> r[i] == (if s[i] == from then to else s[i])
  {
    seq(|s|, i requires 0 <= i < |s| => if s[i] == from then to else s[i])
  }

  /** The first `k` characters, or all of them when there are fewer (`chars().take(k)`). */
  function Take(s: string, k: nat): (r: string)
    ensures |r| == Min(|s|, k)
    ensures r == s[..|r|]
  {
    if |s| < k then s else s[..k]
  }

  predicate IsDigit(c: char) {
    '0' <= c <= '9'
  }

  predicate AllDigits(s: string) {
    forall i :: 0 <= i < |s| ==> IsDigit(s[i])
  }

  function DigitChar(d: nat): char
    requires d < 10
  {
    ('0' as int + d) as char
  }

  function DigitValue(c: char): nat
    requires IsDigit(c)
  {
    c as int - '0' as int
  }

  /** Rust's `{}` rendering of an unsigned integer: its decimal digits, most significant first. */
  function Decimal(n: nat): (r: string)
    ensures |r| >= 1 && AllDigits(r)
    ensures r[0] == '0' ==> n == 0 && |r| == 1
    decreases n
  {
    if n < 10 then [DigitChar(n)] else Decimal(n / 10) + [DigitChar(n % 10)]
  }

  /** The value a string of decimal digits denotes. */
  function ParseDecimal(s: string): nat
    requires AllDigits(s)
  {
    if s == [] then 0 else 10 * ParseDecimal(s[..|s| - 1]) + DigitValue(s[|s| - 1])
  }

  /** Reading back a rendered number gives the number. */
  lemma {:induction false} ParseDecimalOfDecimal(n: nat)
    ensures ParseDecimal(Decimal(n)) == n
    decreases n
  {
    if n >= 10 {
      ParseDecimalOfDecimal(n / 10);
      var r := Decimal(n);
      assert r[..|r| - 1] == Decimal(n / 10);
    }
  }

  /** Distinct numbers render differently. */
  lemma DecimalInjective(m: nat, n: nat)
    ensures Decimal(m) == Decimal(n) <==> m == n
  {
    if Decimal(m) == Decimal(n) {
      ParseDecimalOfDecimal(m);
      ParseDecimalOfDecimal(n);
    }
  }
}

=== FILE: worker.dfy ===
/**
  One worker of the search (`check_vehicle_thread`), as a sequential state
  machine over its sub-range. Each loop iteration first observes what the
  other threads and the user did since the last one (a stop request, a
  peer's find, peers' counter increments), then tests the loop guard, then
  issues one request for the current day and acts on the reply. The request
  itself and the file write are inputs: the reply and whether the write
  succeeded come with each step.
 */
module Worker {
  import opened EventLog
  import opened Responses
  import opened Ranges

  /**
    What changed in the shared state between two iterations: the user pressed
    stop (`is_running` cleared), a peer found a record (`record_found` set),
    and how much peers added to the shared counters.
   */
  datatype Interference = Interference(stop: bool, peerFound: bool, peerChecked: nat, peerSaved: nat)

  const Quiet := Interference(false, false, 0, 0)

  /** Inputs of one loop iteration: the interference seen at the guard, the reply to the request and whether saving it succeeds. */
  datatype Step = Step(env: Interference, reply: Reply, written: bool)

  /** Whether the loop is still going, and if not whether it ended at a `break` (fatal status or match) or at the guard. */
  datatype Phase = Looping | Exited(broke: bool)

  datatype WorkerState = WorkerState(
    thread: nat,
    vehicle: string,
    first: int,            // start of the worker's sub-range
    last: int,             // end of the worker's sub-range, inclusive
    current: int,          // current_date
    localChecked: nat,     // checked_count
    checked: nat,          // shared checked_dates
    found: nat,            // shared found_count
    running: bool,         // shared is_running
    recordFound: bool,     // shared record_found
    queried: seq<int>,     // days a request was issued for, in order
    emitted: seq<Entry>,   // entries this worker wrote to the shared log
    phase: Phase)

  /** A freshly spawned worker for sub-range `r`, seeing the shared state as given. */
  function Spawn(thread: nat, vehicle: string, r: DayRange, checked: nat, found: nat, running: bool, recordFound: bool): WorkerState {
    WorkerState(thread, vehicle, r.first, r.last, r.first, 0, checked, found, running, recordFound, [], [], Looping)
  }

  /** The days `a, a + 1, …, b - 1`. */
  function Span(a: int, b: int): (days: seq<int>)
    requires a <= b
    ensures |days| == b - a
    ensures forall i :: 0 <= i < |days| ==> days[i] == a + i
  {
    seq(b - a, i requires 0 <= i < b - a => a + i)
  }

  lemma SpanExtend(a: int, b: int)
    requires a <= b
    ensures Span(a, b) + [b] == Span(a, b + 1)
  {
  }

  /** The shared state after the interference `e`: flags only move towards stopping, counters only grow. */
  function Interfere(w: WorkerState, e: Interference): (w': WorkerState)
    ensures w'.running == (w.running && !e.stop)
    ensures w'.recordFound == (w.recordFound || e.peerFound)
    ensures w'.checked == w.checked + e.peerChecked && w'.found == w.found + e.peerSaved
    ensures w' == w.(running := w'.running, recordFound := w'.recordFound, checked := w'.checked, found := w'.found)
  {
    w.(running := w.running && !e.stop,
       recordFound := w.recordFound || e.peerFound,
       checked := w.checked + e.peerChecked,
       found := w.found + e.peerSaved)
  }

  /** The loop guard of src/main.rs line 235. */
  predicate Guard(w: WorkerState) {
    w.current <= w.last && w.running && !w.recordFound
  }

  function Emit(w: WorkerState, level: Level, m: Message): WorkerState {
    w.(emitted := w.emitted + [Entry(level, m)])
  }

  /** `save_response` (src/main.rs lines 334-367): the find is counted first, then the write is reported either way. */
  function Save(w: WorkerState, status: Status, written: bool): (w': WorkerState)
    ensures w'.found == w.found + 1
    ensures w'.emitted == w.emitted + [if written then Entry(Success, Saved(w.thread, status, w.vehicle, w.current))
                                       else Entry(Error, SaveFailed(w.thread))]
    ensures w' == w.(found := w'.found, emitted := w'.emitted)
  {
    var counted := w.(found := w.found + 1);
    if written then Emit(counted, Success, Saved(w.thread, status, w.vehicle, w.current))
    else Emit(counted, Error, SaveFailed(w.thread))
  }

  /** The closing entry of src/main.rs lines 295-299, written once the loop is left. */
  function Finish(w: WorkerState, broke: bool): (w': WorkerState)
    ensures w'.phase == Exited(broke)
    ensures w'.emitted == w.emitted + [if w.recordFound then Entry(Warning, StoppedRecordFound(w.thread))
                                       else Entry(Warning, Completed(w.thread, w.localChecked))]
    ensures w' == w.(phase := w'.phase, emitted := w'.emitted)
  {
    var closing := if w.recordFound then StoppedRecordFound(w.thread) else Completed(w.thread, w.localChecked);
    Emit(w, Warning, closing).(phase := Exited(broke))
  }

  /** One pass through the loop body (src/main.rs lines 236-292), entered with the guard true. */
  function Iterate(w: WorkerState, reply: Reply, written: bool): (w': WorkerState)
    requires w.phase == Looping && Guard(w)
    // exactly one request is issued, for the current day
    ensures w'.queried == w.queried + [w.current]
    ensures w'.thread == w.thread && w'.vehicle == w.vehicle && w'.first == w.first && w'.last == w.last
    ensures w'.running == w.running
    ensures reply.TransportError? ==>
              && w'.localChecked == w.localChecked && w'.checked == w.checked
              && w'.found == w.found && w'.recordFound == w.recordFound
              && w'.current == w.current + 1 && w'.phase == Looping
    ensures reply.Response? ==> w'.localChecked == w.localChecked + 1 && w'.checked == w.checked + 1
    ensures reply.Response? && Classify(reply.status, reply.body) != NoRecord ==>
              && w'.found == w.found + 1 && w'.recordFound
              && w'.current == w.current && w'.phase == Exited(true)
    ensures reply.Response? && Classify(reply.status, reply.body) == NoRecord ==>
              && w'.found == w.found && w'.recordFound == w.recordFound
              && w'.current == w.current + 1 && w'.phase == Looping
              && w'.emitted == w.emitted + (if w'.localChecked % 10 == 0 then [Entry(Info, Progress(w.thread, w'.localChecked, w.current))] else [])
  {
    var asked := w.(queried := w.queried + [w.current]);
    match reply
    case TransportError(reason) =>
      Emit(asked, Error, TransportFailure(w.thread, w.current, reason)).(current := w.current + 1)
    case Response(status, body) =>
      var counted := asked.(localChecked := w.localChecked + 1, checked := w.checked + 1);
      match Classify(status, body)
      case Fatal(_) =>
        var logged := Emit(counted, Error, HttpError(w.thread, status, w.vehicle, w.current));
        var saved := Save(logged, status, written);
        var previewed := Emit(saved, Error, ErrorPreview(Preview(body)));
        var stopping := Emit(previewed.(recordFound := true), Warning, StoppingOnHttpError(w.thread, status));
        Finish(stopping, true)
      case NoRecord =>
        var progress :=
          if counted.localChecked % 10 == 0 then Emit(counted, Info, Progress(w.thread, counted.localChecked, w.current))
          else counted;
        progress.(current := w.current + 1)
      case Match =>
        var announced := Emit(counted, Success, RecordFound(w.thread, w.vehicle, w.current));
        var banner := Emit(Emit(Emit(announced, Success, Rule('=')), Success, RecordFoundBanner), Success, Rule('='));
        var saved := Save(banner, status, written);
        var previewed := Emit(saved, Success, MatchPreview(Preview(body)));
        Finish(previewed.(recordFound := true), true)
  }

  /**
    The loop of src/main.rs lines 235-293 and the closing entry, fed one step per
    iteration until the loop is left or the steps run out. A step whose
    guard fails is consumed without issuing its request.
   */
  function Run(w: WorkerState, steps: seq<Step>): (w': WorkerState)
    ensures w'.thread == w.thread && w'.vehicle == w.vehicle && w'.first == w.first && w'.last == w.last
    ensures w'.localChecked >= w.localChecked && w'.checked >= w.checked && w'.found >= w.found
    ensures w.phase.Exited? ==> w' == w
    ensures |w'.queried| >= |w.queried| && w'.queried[..|w.queried|] == w.queried
    decreases |steps|
  {
    if w.phase.Exited? || steps == [] then w
    else
      var seen := Interfere(w, steps[0].env);
      if !Guard(seen) then Finish(seen, false)
      else Run(Iterate(seen, steps[0].reply, steps[0].written), steps[1..])
  }

  /**
    What holds of every reachable worker: the days queried so far are exactly
    the days from the start of the sub-range up to the current one (including
    it when the loop broke on it), and the current day goes at most one day
    past the end (the loop advances to `end_date + 1` before its guard fails),
    so no day past the end is ever requested.
   */
  ghost predicate Inv(w: WorkerState) {
    && w.first <= w.current
    && w.localChecked <= |w.queried|
    && match w.phase
       case Looping =>
         w.current <= w.last + 1 && w.queried == Span(w.first, w.current)
       case Exited(broke) =>
         if broke then w.current <= w.last && w.queried == Span(w.first, w.current + 1) && w.recordFound
         else w.current <= w.last + 1 && w.queried == Span(w.first, w.current)
  }

  lemma SpawnInv(thread: nat, vehicle: string, r: DayRange, checked: nat, found: nat, running: bool, recordFound: bool)
    requires r.first <= r.last
    ensures Inv(Spawn(thread, vehicle, r, checked, found, running, recordFound))
  {
  }

  lemma IterateInv(w: WorkerState, reply: Reply, written: bool)
    requires Inv(w) && w.phase == Looping && Guard(w)
    ensures Inv(Iterate(w, reply, written))
  {
    SpanExtend(w.first, w.current);
  }

  /** Every state a run reaches from a reachable state is reachable. */
  lemma {:induction false} RunInv(w: WorkerState, steps: seq<Step>)
    requires Inv(w)
    ensures Inv(Run(w, steps))
    decreases |steps|
  {
    if w.phase == Looping && steps != [] {
      var seen := Interfere(w, steps[0].env);
      if Guard(seen) {
        IterateInv(seen, steps[0].reply, steps[0].written);
        RunInv(Iterate(seen, steps[0].reply, steps[0].written), steps[1..]);
      }
    }
  }

  /**
    A worker visits its days in strictly ascending order, each at most once,
    all within its sub-range: the `i`-th request is for day `first + i`.
   */
  lemma QueriesAscendWithinRange(w: WorkerState, steps: seq<Step>)
    requires w == Spawn(w.thread, w.vehicle, DayRange(w.first, w.last), w.checked, w.found, w.running, w.recordFound)
    requires w.first <= w.last
    ensures forall i :: 0 <= i < |Run(w, steps).queried| ==> Run(w, steps).queried[i] == w.first + i
    ensures forall i :: 0 <= i < |Run(w, steps).queried| ==> w.first <= Run(w, steps).queried[i] <= w.last
    ensures forall i, j :: 0 <= i < j < |Run(w, steps).queried| ==> Run(w, steps).queried[i] < Run(w, steps).queried[j]
  {
    RunInv(w, steps);
  }

  /** No request is issued once the stop request or a find is visible at the loop guard: the worker leaves the loop. */
  lemma NoRequestAfterStop(w: WorkerState, steps: seq<Step>)
    requires w.phase == Looping && steps != []
    requires var seen := Interfere(w, steps[0].env); !seen.running || seen.recordFound
    ensures Run(w, steps).queried == w.queried
    ensures Run(w, steps).phase == Exited(false)
    ensures Run(w, steps).localChecked == w.localChecked
  {
  }

  /** A worker spawned after `record_found` was set issues no request and leaves the flag set. */
  lemma SpawnedAfterFindIdle(thread: nat, vehicle: string, r: DayRange, checked: nat, found: nat, running: bool, steps: seq<Step>)
    ensures Run(Spawn(thread, vehicle, r, checked, found, running, true), steps).queried == []
    ensures Run(Spawn(thread, vehicle, r, checked, found, running, true), steps).recordFound
    ensures Run(Spawn(thread, vehicle, r, checked, found, running, true), steps).phase != Exited(true)
  {
  }

  /** A step in which nothing else happens in the shared state. */
  predicate QuietStep(s: Step) {
    s.env == Quiet
  }

  /** Uncontested, the worker's shared-counter increments are exactly its own work: one check per response, one find per break. */
  lemma {:induction false} QuietRunCounts(w: WorkerState, steps: seq<Step>)
    requires Inv(w)
    requires forall k :: 0 <= k < |steps| ==> QuietStep(steps[k])
    ensures Run(w, steps).checked - w.checked == Run(w, steps).localChecked - w.localChecked
    ensures Run(w, steps).found - w.found == if Run(w, steps).phase == Exited(true) && w.phase == Looping then 1 else 0
    ensures w.phase == Looping && Run(w, steps).phase == Exited(true) ==> Run(w, steps).recordFound
    ensures Run(w, steps).phase != Exited(true) || w.phase != Looping ==> Run(w, steps).recordFound == w.recordFound
    decreases |steps|
  {
    if w.phase == Looping && steps != [] {
      var seen := Interfere(w, steps[0].env);
      assert seen == w;
      if Guard(seen) {
        var next := Iterate(seen, steps[0].reply, steps[0].written);
        IterateInv(seen, steps[0].reply, steps[0].written);
        QuietRunCounts(next, steps[1..]);
      }
    }
  }

  /** The reply is the service's "no record" page. */
  predicate NoRecordReply(s: Step) {
    s.reply.Response? && Classify(s.reply.status, s.reply.body) == NoRecord
  }

  /**
    A worker that only ever gets the "no record" page, undisturbed, checks
    every day of its sub-range once, counts none as found, and closes with
    its completion entry.
   */
  lemma {:induction false} AllNoRecordExhaustsRange(w: WorkerState, steps: seq<Step>)
    requires Inv(w) && w.phase == Looping && w.running && !w.recordFound
    requires |steps| > w.last + 1 - w.current
    requires forall k :: 0 <= k < |steps| ==> QuietStep(steps[k]) && NoRecordReply(steps[k])
    ensures Run(w, steps).phase == Exited(false)
    ensures Run(w, steps).queried == Span(w.first, w.last + 1)
    ensures Run(w, steps).localChecked == w.localChecked + (w.last + 1 - w.current)
    ensures Run(w, steps).checked == w.checked + (w.last + 1 - w.current)
    ensures Run(w, steps).found == w.found && !Run(w, steps).recordFound && Run(w, steps).running
    ensures |Run(w, steps).emitted| > 0
    ensures Run(w, steps).emitted[|Run(w, steps).emitted| - 1] == Entry(Warning, Completed(w.thread, Run(w, steps).localChecked))
    decreases |steps|
  {
    if w.current <= w.last {
      var next := NoRecordAdvances(w, steps);
      AllNoRecordExhaustsRange(next, steps[1..]);
    } else {
      ExhaustedFinishes(w, steps);
    }
  }

  /** Undisturbed, a worker past the end of its sub-range leaves the loop at the guard. */
  lemma ExhaustedFinishes(w: WorkerState, steps: seq<Step>)
    requires w.phase == Looping && w.current > w.last
    requires |steps| > 0 && QuietStep(steps[0])
    ensures Run(w, steps) == Finish(w, false)
  {
    assert Interfere(w, steps[0].env) == w;
  }

  /**
    Undisturbed, a match (or a fatal status) on the `k`-th day of the
    sub-range ends the worker on that day: it has queried exactly the days up
    to and including it and counted one find.
   */
  lemma {:induction false} FirstHitStops(w: WorkerState, steps: seq<Step>, k: nat)
    requires Inv(w) && w.phase == Looping && w.running && !w.recordFound
    requires w.current + k <= w.last && k < |steps|
    requires forall j :: 0 <= j < |steps| ==> QuietStep(steps[j])
    requires forall j :: 0 <= j < k ==> NoRecordReply(steps[j])
    requires steps[k].reply.Response? && !NoRecordReply(steps[k])
    ensures Run(w, steps).phase == Exited(true)
    ensures Run(w, steps).queried == Span(w.first, w.current + k + 1)
    ensures Run(w, steps).found == w.found + 1 && Run(w, steps).recordFound
    ensures |Run(w, steps).emitted| > 0
    ensures Run(w, steps).emitted[|Run(w, steps).emitted| - 1] == Entry(Warning, StoppedRecordFound(w.thread))
    decreases k
  {
    if k == 0 {
      HitEndsRun(w, steps);
    } else {
      var next := NoRecordAdvances(w, steps);
      FirstHitStops(next, steps[1..], k - 1);
    }
  }

  /** An undisturbed "no record" step from a running worker: the loop moves one day on and carries on with the rest of the steps. */
  lemma NoRecordAdvances(w: WorkerState, steps: seq<Step>) returns (next: WorkerState)
    requires Inv(w) && w.phase == Looping && w.running && !w.recordFound && w.current <= w.last
    requires |steps| > 0 && QuietStep(steps[0]) && NoRecordReply(steps[0])
    ensures Run(w, steps) == Run(next, steps[1..])
    ensures Inv(next) && next.phase == Looping && next.running && !next.recordFound
    ensures next.thread == w.thread && next.first == w.first && next.last == w.last
    ensures next.current == w.current + 1
    ensures next.localChecked == w.localChecked + 1 && next.checked == w.checked + 1 && next.found == w.found
  {
    var seen := Interfere(w, steps[0].env);
    assert seen == w;
    next := Iterate(w, steps[0].reply, steps[0].written);
    IterateInv(w, steps[0].reply, steps[0].written);
  }

  /** The step case of `FirstHitStops`: the hit is on the current day. */
  lemma HitEndsRun(w: WorkerState, steps: seq<Step>)
    requires Inv(w) && w.phase == Looping && w.running && !w.recordFound && w.current <= w.last
    requires |steps| > 0 && QuietStep(steps[0])
    requires steps[0].reply.Response? && !NoRecordReply(steps[0])
    ensures Run(w, steps).phase == Exited(true)
    ensures Run(w, steps).queried == Span(w.first, w.current + 1)
    ensures Run(w, steps).found == w.found + 1 && Run(w, steps).recordFound
    ensures |Run(w, steps).emitted| > 0
    ensures Run(w, steps).emitted[|Run(w, steps).emitted| - 1] == Entry(Warning, StoppedRecordFound(w.thread))
  {
    var seen := Interfere(w, steps[0].env);
    assert seen == w;
    var next := Iterate(w, steps[0].reply, steps[0].written);
    IterateInv(w, steps[0].reply, steps[0].written);
    assert Run(w, steps) == next;
  }
}

=== FILE: wrappers.dfy ===
/** Failure-carrying values used across the model. */
module Wrappers {

  /** An optional value: `None` stands for a missing or unparsable input. */
  datatype Option<+T> = None | Some(value: T)
}
